=== FILE: README.md ===
# ASSA SQL assessment services, modelled in Dafny

ASSA grades student SQL. It has three services:

- The **SQL runner** executes queries in a throw-away database environment. It returns the fetched result set and compares the result sets of a reference solution and a submission. Before comparing, it can optionally normalise columns (sort them by name, or number them by position) and rows (sort them).
- The **feedback service** builds one prompt per submission, asks a chat model for a structured verdict and maps each verdict to `{correct, feedback}`.
- The **persistence proxy** authenticates a consumer by bearer token. It fills in missing execution results through the runner, forwards the request with the task and user ids redacted, and logs the exchange.

This project models the core logic of the three services as pure Dafny functions, with one method and its loop. It proves what that logic promises:

- **Ordering and normalisation.**
  - The derived order on SQL values and rows is total.
  - Sorting rows yields the unique sorted permutation.
  - Column sorting is a stable sort of the names, with the same rearrangement applied to every row.
  - Every normalisation is idempotent.
  - The comparison verdict is plain equality without normalisation, and multiset equality under row sorting.
- **Fetching.**
  - Extraction honours the row cap and reports the first driver error.
  - The runner's error responses separate caller failures (status 200) from internal ones (status 500).
- **Start-up configuration.**
  - `hex_to_bytes32` accepts exactly 64 hex digits and round-trips with an encoder.
  - The configuration defaults are 8080, 1000 and 10000.
- **Prompt and analyser.**
  - The exact structure of the prompt, including Python's `strip`.
  - The analyser answers the `k`-th submission with the `k`-th model call, and a failure on one submission does not affect the others.
- **Proxy.**
  - Redaction keeps exactly the non-identifying fields.
  - Filling is idempotent and commutes with redaction.
  - The proxy's status codes.
  - Across the proxy and the runner: what `generate_results` records for each runner error.
- **Authentication.**
  - The token is the second space-separated field of the `Authorization` header.
  - A request is authenticated exactly when some consumer's stored hash contains the token's hash.

I/O is modelled as function parameters:

- **Database execution:** `Routes.Executor`, plus the row stream `Db.RowStream` that `extract` reads.
- **Chat model:** `Analyzer.ChatModel`, the outcome of the `k`-th call.
- **HTTP runner:** `ProxyApi.Runner`.
- **Upstream feedback service:** `ProxyApi.Upstream`.
- **Log table:** `ProxyApi.LogStore`, which says whether an insert succeeds.
- **blake3 hex digest** and inflect's `number_to_words`: `string -> string` parameters.

Rust `f64` is modelled as `Models.F64`: the negative and positive infinities and the finite reals, with no NaN. `serde_json` writes an infinite `f64` as `null`, which no `SqlValue` variant reads back, so `ProxyApi.ServedBy` turns a result set holding an infinity into an unreadable reply.

## Files

| file | module | contents |
|---|---|---|
| wrappers.dfy | Wrappers | `Option`, `Result` |
| text.dfy | Text | bytes, decimal numerals, `join` |
| order.dfy | Order | total orders, lexicographic order |
| sorting.dfy | Sorting | insertion sort over any order, permutation, sortedness, uniqueness |
| models.dfy | Models | `SqlValue`, `ResultSet`, `SqlResult`, the derived orders |
| normalise.dfy | Normalise | `sort_columns`, `number_columns`, `sort_rows` |
| db.dfy | Db | `extract`, `compare`, the execution errors |
| routes.dfy | Routes | `run`, `err_to_response`, `compare_result_set`, `batch_compare_result_sets`, serde defaults |
| config.dfy | RunnerConfig | `hex::decode`, `hex_to_bytes32`, the runner configuration |
| prompt.dfy | Prompt | `generate_prompt` and Python's `strip` |
| analyzer.dfy | Analyzer | `analyze_sql` and the chat request |
| proxy_model.dfy | ProxyModel | `AnalysisRequest`, `redact` |
| proxy_api.dfy | ProxyApi | `generate_results`, `upstream_proxy`, `analyse` |
| auth.dfy | Auth | the bearer-token extractor |

## Model

| member | source | states |
|---|---|---|
| Models.VariantOrder | common/src/models.rs:4-11 | the derived order ranks `Bool < Int < Float < Text`, whatever the payloads |
| Models.SameVariantByPayload | common/src/models.rs:4-11 | values of one variant compare by payload: `false < true`, integers numerically, floats with infinities at the ends, strings lexicographically |
| Models.ValueLtIsStrict | common/src/models.rs:4-11 | the derived `<` on values is a strict total order (no NaN) |
| Models.RowLeqIsTotal | sql_runner/src/db/types.rs:39-41 | the order `sort_rows` sorts by, the lexicographic order on rows, is reflexive, antisymmetric, transitive and total |
| Models.RowPrefixIsSmaller | sql_runner/src/db/types.rs:39-41 | a row sorts before its proper extensions |
| Models.RowFirstDifference | sql_runner/src/db/types.rs:39-41 | two rows are ordered as their first differing cells are |
| Normalise.ColumnOrder | sql_runner/src/db/types.rs:14-15 | the column order is a permutation of the positions that puts names in order, with equal names keeping their original order (a stable sort) |
| Normalise.SortColumns | sql_runner/src/db/types.rs:13-33 | the columns come out in name order, and every row is rearranged by the same permutation as the columns; rectangular sets stay rectangular |
| Normalise.SortColumnsKeepsSorted | sql_runner/src/db/types.rs:13-33 | a set whose columns are already in name order is left unchanged |
| Normalise.SortColumnsIdempotent | sql_runner/src/db/types.rs:13-33 | sorting the columns twice is sorting them once |
| Normalise.NumberColumns | sql_runner/src/db/types.rs:35-37 | the columns become the distinct numerals "0" to "n-1"; the rows are untouched |
| Normalise.NumberColumnsIgnoresNames | sql_runner/src/db/types.rs:35-37 | the result depends only on the number of columns, not their names |
| Normalise.NumberColumnsIdempotent | sql_runner/src/db/types.rs:35-37 | numbering twice is numbering once |
| Normalise.SortRows | sql_runner/src/db/types.rs:39-41 | the rows come out as a sorted permutation of the input rows; the columns are unchanged |
| Normalise.SortRowsIsTheSortedPermutation | sql_runner/src/db/types.rs:39-41 | every sorted permutation of the rows equals the result of `sort_rows` |
| Normalise.SortRowsEqualIff | sql_runner/src/db/types.rs:39-41 | two sets' rows sort equal exactly when they hold the same multiset of rows |
| Normalise.SortRowsIdempotent | sql_runner/src/db/types.rs:39-41 | sorting the rows twice is sorting them once |
| Db.DecodeCell | sql_runner/src/db/mod.rs:268-293 | the decode ladder: the first type the driver accepts decides the value. Text gives `Text`; a decimal gives `Float` of its conversion; `f64` and `f32` give `Float`; `i64` and `i32` give `Int`; `bool` gives `Bool`; a timestamp or date gives `Text` of its rendering. Decoding fails exactly when the cell is a decimal that does not convert or no tried type applies, and the error names the column |
| Db.IntegerAndNumericDecodeApart | sql_runner/src/db/mod.rs:271-282 | an INT4 cell decodes to `Int` and a NUMERIC cell to `Float`, so the two never decode to the same value |
| Db.DecodeCells | sql_runner/src/db/mod.rs:267-295 | a row decodes exactly when every cell does, giving one value per column in column order; otherwise the error names the first column whose cell does not decode |
| Db.DecodeRows | sql_runner/src/db/mod.rs:257-296 | the rows decode exactly when each row decodes with its own columns; otherwise the error is the first failing row's |
| Db.FetchRows | sql_runner/src/db/mod.rs:249-254 | at most `max` items are taken, in order; the fetch succeeds exactly when all taken items are rows, and otherwise reports the first error item among them as `Execute` |
| Db.Extract | sql_runner/src/db/mod.rs:244-302 | succeeds exactly when every item within the cap is a row that decodes. Then the result has `min(len, max)` rows, each decoded with its own row's columns, under the first row's columns; no rows give the empty result set. A driver error within the cap wins, reported as `Execute` of the first such error; otherwise the first undecodable row's error is reported |
| Db.FetchErrorIsFirst | sql_runner/src/db/mod.rs:249-254 | the first driver error within the cap is the error the fetch reports |
| Db.DecodeOkIff | sql_runner/src/db/mod.rs:257-296 | after a successful fetch, decoding succeeds exactly when every fetched row decodes |
| Db.DecodeErrorIsFirst | sql_runner/src/db/mod.rs:257-296 | after a successful fetch, a decoding failure is the first undecodable row's error |
| Db.ExtractIgnoresItemsPastCap | sql_runner/src/db/mod.rs:249-254 | items past the row cap, errors included, do not affect the result |
| Db.NormaliseSet | sql_runner/src/db/mod.rs:141-151 | the columns are normalised first, then the rows are sorted if requested; the result keeps the column normalisation and, under `SortRows`, is a sorted permutation of its rows |
| Db.Compare | sql_runner/src/db/mod.rs:130-155 | an error in query a is reported before query b's; on success both sets are normalised alike and `eq` holds exactly when they are equal |
| Db.CompareSymmetric | sql_runner/src/db/mod.rs:130-155 | swapping the two queries swaps the returned sets and keeps the verdict |
| Db.RawVerdictIsEquality | sql_runner/src/db/mod.rs:141-153 | with no normalisation the verdict is exact equality of the fetched sets |
| Db.SortedVerdictIsBagEquality | sql_runner/src/db/mod.rs:141-153 | under `SortRows`, the verdict holds exactly when the normalised columns agree and the rows are the same multiset |
| Db.NumberedVerdictIgnoresNames | sql_runner/src/db/mod.rs:141-153 | under `NumberColumnsByOrder`, renaming columns never changes the verdict |
| Db.NormaliseIdempotent | sql_runner/src/db/mod.rs:141-151 | normalising a normalised set changes nothing |
| Routes.ErrToResponse | sql_runner/src/routes.rs:48-75 | `Init` gives 200 with location "init" and the driver's message; `Execute` gives 200 with "query"; anything else gives 500 with "other" and a fixed message |
| Routes.ErrorStatusClassifies | sql_runner/src/routes.rs:48-75 | the status is 200 exactly for caller failures; every internal failure gets the same response, so no detail leaks |
| Routes.ReadSolution | sql_runner/src/routes.rs:121-142 | absent fields default to no row normalisation, numbered columns and no result set; present fields are kept |
| Routes.ReadSolutionDefaults | sql_runner/src/routes.rs:121-142 | a fully written-out solution reads back as itself, and omitting every field is the same as writing out the defaults |
| Routes.ReadCompareRequest | sql_runner/src/routes.rs:77-131 | an absent row normalisation becomes no normalisation, an absent column normalisation becomes numbered columns; present fields and the three strings are kept |
| Routes.ReadCompareRequestDefaults | sql_runner/src/routes.rs:77-131 | a fully written-out compare request reads back as itself; omitting both normalisations equals writing out the defaults, the same ones a batch solution gets |
| Routes.Run | sql_runner/src/routes.rs:32-46 | fails exactly when the execution fails; the status is 200, carrying the driver's message, exactly for init and query failures |
| Routes.CompareResultSet | sql_runner/src/routes.rs:95-119 | succeeds exactly when both queries run, the solution's error first; returns both sets normalised alike, and `equal` holds exactly when they are equal |
| Routes.CollectFrom | sql_runner/src/routes.rs:195-203 | given each solution's comparison outcome, one entry per solution in order, each its verdict and the requested set; the first failing solution in input order decides the error |
| Routes.BatchCompare | sql_runner/src/routes.rs:163-209 | succeeds exactly when every solution compares. Each entry carries its verdict, plus the submission-side set exactly when that solution asks for it. The first failure in input order is reported. `submission_result_set` is as written (see Findings) |
| Routes.SubmissionResultSetIsSolutionSide | sql_runner/src/routes.rs:190-194 | gives an input where `submission_result_set` is not the submission's result set |
| Routes.BatchCompareCorrected | sql_runner/src/routes.rs:163-209 | the same entries and outcome as `BatchCompare`, with `submission_result_set` being the submission's own result, normalised as the first solution asks |
| RunnerConfig.HexDecode | sql_runner/src/main.rs:34 | an odd length is rejected first; the decode succeeds exactly when every character is a hex digit in either case, and gives half as many bytes |
| RunnerConfig.DecodePairs | sql_runner/src/main.rs:34 | each byte is the value of its two digits, high nibble first; the error is the first invalid character and its index |
| RunnerConfig.HexToBytes32 | sql_runner/src/main.rs:29-44 | accepts exactly 64 hex digits, giving the 32 decoded bytes; valid hex of another length gives "Expected 32 bytes, got N" |
| RunnerConfig.HexToBytes32RoundTrip | sql_runner/src/main.rs:29-44 | any 32 bytes, hex-encoded in lower or upper case, decode back to themselves |
| RunnerConfig.ReadConfig | sql_runner/src/main.rs:17-59 | the configuration loads exactly when the three database fields and a valid key are present. It then holds the given strings and the decoded key; absent port, row cap and timeout default to 8080, 1000 and 10000. A bad key is reported first; otherwise the first missing required field in declaration order (`db_password`, `db_username`, `db_host`, `password_hash_key`) |
| RunnerConfig.ReadConfigDecodesKey | sql_runner/src/main.rs:29-58 | with the database settings present, a key given as the hex of 32 bytes, in either case, loads as exactly those bytes |
| Prompt.LStrip | sql_feedback/utils.py:44 | the result is a suffix, what was removed is all whitespace, and the result does not start with whitespace |
| Prompt.RStrip | sql_feedback/utils.py:44 | the result is a prefix, what was removed is all whitespace, and the result does not end with whitespace |
| Prompt.RStripUnique | sql_feedback/utils.py:44 | those three properties determine `rstrip`'s result |
| Prompt.LStripUnique | sql_feedback/utils.py:44 | those three properties determine `lstrip`'s result |
| Prompt.Strip | sql_feedback/utils.py:44 | the result is a contiguous middle part of the input with only whitespace before and after it, and it neither starts nor ends with whitespace |
| Prompt.StripEitherOrder | sql_feedback/utils.py:44 | stripping the left end first or the right end first gives the same string |
| Prompt.SolutionText | sql_feedback/utils.py:14 | "reference solution" exactly when there is one solution, "reference solutions" otherwise |
| Prompt.DisplayPrefix | sql_feedback/utils.py:15-17 | "Reference Solution" exactly when there is one solution, "Reference Solutions" otherwise |
| Prompt.Item | sql_feedback/utils.py:22 | a list item is the 1-based number, ". " and the solution text |
| Prompt.Items | sql_feedback/utils.py:21-23 | one item per solution, numbered from its position |
| Prompt.SolutionsList | sql_feedback/utils.py:20-25 | "None provided" for no solutions; the solution itself for one; otherwise a numbered list starting with item 1 |
| Prompt.SolutionsListSnoc | sql_feedback/utils.py:20-23 | adding a solution to a list of two or more appends one line, numbered next |
| Prompt.SolutionsListSecond | sql_feedback/utils.py:20-25 | the second solution turns the bare solution into the two-item list "1. ...", "2. ..." |
| Prompt.TemplateIsValid | sql_feedback/utils.py:28-43 | the template's text starts with a visible character and puts a line break before the submission |
| Prompt.Lead | sql_feedback/utils.py:29 | the first sentence, up to the spelled-out count and solution wording, starts and ends with visible characters |
| Prompt.Body | sql_feedback/utils.py:28-42 | the template without the submission starts with the lead and ends with the line break before the submission |
| Prompt.PromptLayout | sql_feedback/utils.py:28-44 | stripping removes the template's leading line break and the submission's trailing whitespace. A blank submission also loses the line break before it |
| Prompt.PromptShape | sql_feedback/utils.py:28-44 | the prompt starts with the lead sentence. It is the body followed by the submission without trailing whitespace; when that is empty, the body is right-stripped |
| Prompt.GeneratePromptShape | sql_feedback/utils.py:7-44 | the same shape for the service's own template text |
| Analyzer.Messages | sql_feedback/main.py:15-56 | the system prompt, the prompt as the user message, and an empty assistant message, in that order |
| Analyzer.RequestFor | sql_feedback/main.py:51-66 | the request names the fixed model, temperature 0 and top-p 0.95, and its user message is the prompt for this submission |
| Analyzer.Grade | sql_feedback/main.py:67-86 | correct exactly when the model returned a verdict of overall correctness. Incorrect gives the model's overall feedback, and correct gives empty feedback. A raised error becomes "Error processing submission: " and its message. An empty verdict gets that prefix twice |
| Analyzer.AnalyzeSql | sql_feedback/main.py:41-88 | an empty submission list is refused with 400 before any call; otherwise there is one answer per submission, in order, with the `k`-th answer the grade of the `k`-th call; the whole result is `Answers` |
| Analyzer.CollectInOrder | sql_feedback/main.py:47-88 | the loop appends results in submission order |
| Analyzer.Answers | sql_feedback/main.py:47-88 | one answer per submission; a correct answer has empty feedback |
| Analyzer.FailureIsolation | sql_feedback/main.py:59-86 | a failing call affects only its own submission's answer |
| Analyzer.RequestsIgnoreExtraFields | sql_feedback/main.py:34-51 | the ids, the feedback language and the supplied results never reach the prompt |
| Analyzer.AnswersIgnoreExtraFields | sql_feedback/main.py:34-88 | two requests that differ only in those fields get the same answers |
| ProxyModel.Redact | persistence_proxy/src/model.rs:19-24 | the result has no task or user id, and every other field is unchanged |
| ProxyModel.RedactIsIdentityIffAnonymous | persistence_proxy/src/model.rs:19-24 | redaction changes a request exactly when it carries an id |
| ProxyModel.RedactIdempotent | persistence_proxy/src/model.rs:19-24 | redacting twice is redacting once |
| ProxyModel.RedactForgetsOnlyIds | persistence_proxy/src/model.rs:19-24 | two requests redact alike exactly when they agree on all but the ids |
| ProxyApi.ToEntry | persistence_proxy/src/api.rs:86-97 | no runner answer gives `None`; a success gives its result set; a failure gives `Error("Error: " + message)` |
| ProxyApi.GenerateResults | persistence_proxy/src/api.rs:74-100 | one entry per query, in query order, each query run with the schema as its environment |
| ProxyApi.GenerateResultsAppend | persistence_proxy/src/api.rs:79-99 | the results of concatenated query lists are the concatenated results |
| ProxyApi.GenerateResultsFromRunner | persistence_proxy/src/api.rs:86-97 | across the services, with the runner's `run` behind HTTP and JSON: a run gives its result set unless it holds an infinite float, which comes back as `None`; an init or query failure gives `Error("Error: " + driver message)`; an internal runner error gives `None` |
| ProxyApi.InfinityIsLostInTransit | persistence_proxy/src/api.rs:86-92 | a query returning an infinite float runs in the runner, but the proxy records `None` for it |
| ProxyApi.Fill | persistence_proxy/src/api.rs:20-42 | with a runner configured, each absent results field is filled from the runner; supplied fields and all other fields are kept; with no runner the request is unchanged |
| ProxyApi.FillIdempotent | persistence_proxy/src/api.rs:20-42 | after filling with a runner both results fields are present, and filling again changes nothing |
| ProxyApi.FillCommutesWithRedact | persistence_proxy/src/api.rs:20-106 | filling and redacting touch disjoint fields, so their order does not matter |
| ProxyApi.UpstreamProxy | persistence_proxy/src/api.rs:102-118 | the redacted request is sent. The answer is returned exactly when there is a response with a non-error status and a decodable body. An error status is reported with that status |
| ProxyApi.Forwarded | persistence_proxy/src/api.rs:20-106 | what the feedback service receives carries no ids, keeps the content, and keeps supplied results |
| ProxyApi.Analyse | persistence_proxy/src/api.rs:15-72 | 502 exactly when the upstream gave no usable answer; otherwise 500 exactly when the log insert fails, and the upstream's answer unchanged when it succeeds |
| ProxyApi.LogKeepsCallerIds | persistence_proxy/src/api.rs:52-64 | the log receives the request as sent, ids included, while upstream sees only the redacted request |
| Auth.HeaderText | persistence_proxy/src/auth.rs:23 | the header is readable exactly when every byte is visible ASCII or a tab, and the text is those bytes |
| Auth.Split | persistence_proxy/src/auth.rs:24 | at least one field, none containing a space |
| Auth.SplitJoin | persistence_proxy/src/auth.rs:24 | joining the fields with single spaces gives the header back |
| Auth.SplitCount | persistence_proxy/src/auth.rs:24 | there is one more field than there are spaces |
| Auth.Token | persistence_proxy/src/auth.rs:24 | a token exists exactly when the header has a space, and it contains no space |
| Auth.TokenByPosition | persistence_proxy/src/auth.rs:24 | the token runs from after the first space to the next space or the end |
| Auth.FirstMatch | persistence_proxy/src/auth.rs:30-36 | a consumer is found exactly when some stored hash contains the token's hash, and the found one does |
| Auth.Authenticate | persistence_proxy/src/auth.rs:19-39 | every failure is 401: no header, a non-text header, no space, a failed query, or no match. Success is exactly a consumer whose hash contains the digest of the token, and gives that consumer's id |

## Left out

- Database work: connection pools, creating the per-environment database and user, running the environment script and introspection. These appear only as `Routes.Executor` and the row stream `Db.RowStream`.
- The HTTP transports: axum, reqwest and the OpenAI client. These are the function parameters listed above. The OpenAPI annotations, logging and the semaphore that limits upstream calls carry no logic.
- Routes.Executor: a query is assumed to give the same outcome each time it runs in the same environment, and its result set is assumed rectangular. The source re-runs the submission for every solution of a batch. Queries without `ORDER BY`, volatile functions such as `random()` or `now()`, and environments whose set-up fails part-way can give different outcomes across runs, so they can give verdicts the model cannot.
- Concurrency: `join_all` is modelled as running calls one after another in input order. The per-call results are independent, so this changes nothing, except as the next line says.
- Routes.BatchCompare: sets `submission_result_set` from the first comparison in input order. In the source, the `OnceCell` takes the first comparison to finish, which depends on scheduling.
- Floating point: NaN is not modelled. The infinities and finite values are ordered as `f64` orders them, and the decimal-to-`f64` conversion is an input to the model (`None` when it fails). `-0.0` and `0.0` are one model value: `f64` equality and ordering, and so every verdict, do not tell them apart, but the runner's JSON responses print them differently.
- The driver's per-type decoding: each `try_get` outcome in the decode ladder is an input. The timestamp and date display formats are not modelled. The integer types are unbounded `int`.
- RunnerConfig.ReadConfig: the port (`u16`), the row cap and the timeout arrive as numbers, so their text parsing is not modelled and only the key can hold a bad value. In the source, an unparsable number is a bad value too, and among several bad values the first one in the environment's order is reported.
- Authentication hashing: blake3's hex digest is the `hash` parameter. Which row `.one()` returns when several consumers match is not specified; the model takes the first in the store's order.
- Analyzer.AnalyzeSql: stated for any wording of the prompt template that has a visible first character and a line break before the submission (`Prompt.ValidWording`). The service uses `Prompt.Template`, which `Prompt.TemplateIsValid` shows is such a wording.
- Prompt.GeneratePrompt: `number_to_words` from inflect is a parameter. The prompt does not include the feedback language or the supplied execution results, and the model follows the code in this. Pydantic's validation of request fields is not modelled; requests arrive well typed.
- ProxyApi.Analyse: the `serde_json::to_value` failure branch is not modelled; serialising these records cannot fail. The runner is assumed to answer the same query in the same environment the same way.
- sql_feedback/src/routes.rs and sql_feedback/src/main.rs are not part of this model. They are a separate Rust front for the feedback service.
- ProxyApi.LogKeepsCallerIds: states that ids reach the log through a store that accepts only anonymous requests. The database schema of the log table is not part of this model.

## Findings

| source | as written | input that shows it | evidently intended | confidence | as-written member | corrected member |
|---|---|---|---|---|---|---|
| sql_runner/src/routes.rs:190-194 | `submission_result_set` is set from `a`, the result set of the solution query | one solution `SELECT 1 AS n` with submission `SELECT 2 AS n`: the response's `submission_result_set` holds the row `1`, the solution's result | `submission_result_set` holds the submission's result set, which is `b` in `compare` | medium, not executed | Routes.SubmissionResultSetIsSolutionSide | Routes.BatchCompareCorrected |

=== FILE: analyzer.dfy ===
/**
 * The feedback service's grading loop (`analyze_sql`): one chat-model call
 * per submission, each with its own prompt, each verdict or failure mapped to
 * a `{correct, feedback}` answer on its own.
 */
module Analyzer {
  import opened Wrappers
  import opened Models
  import opened Prompt

  const SystemPrompt: string := "You are a helpful assistant who is an excellent educator for SQL."
  const ModelName: string := "thm/gemma-3-27b-Q8"
  const Temperature: real := 0.0
  const TopP: real := 0.95

  const ErrorPrefix: string := "Error processing submission: "
  /** The text of the exception raised for an empty parse, which is then caught and prefixed once more. */
  const EmptyResponseMessage: string := "Error processing submission: LLM response empty"
  const NoSubmissionsDetail: string := "Submissions must be a non-empty list of SQL queries."

  /** The request body of the feedback endpoint. */
  datatype AnalyzeRequest = AnalyzeRequest(
    sqlEnvironment: string,
    dbSchema: string,
    task: string,
    solutions: seq<string>,
    submissions: seq<string>,
    solutionResults: Option<Results>,
    submissionResults: Option<Results>,
    taskId: Option<string>,
    userId: Option<string>,
    feedbackLanguage: Option<string>)

  datatype AnalyzeResponse = AnalyzeResponse(correct: bool, feedback: string)

  datatype HttpError = HttpError(status: nat, detail: string)

  datatype Role = System | User | Assistant
  datatype Message = Message(role: Role, content: string)
  datatype ChatRequest = ChatRequest(model: string, messages: seq<Message>, temperature: real, topP: real)

  /** The structured answer the model is asked for. */
  datatype Step = Step(explanation: string, output: string)
  datatype SubmissionFeedback = SubmissionFeedback(
    studentSubmission: string,
    syntaxAnalysis: seq<Step>,
    semanticsAnalysis: seq<Step>,
    overallFeedback: string,
    overallCorrectness: bool)
  datatype AnalyzerOutput = AnalyzerOutput(task: string, referenceSolutions: seq<string>, studentFeedback: SubmissionFeedback)

  /** What one model call gives back: an exception with its text, or a completion whose parse may be empty. */
  datatype ChatOutcome = Raised(message: string) | Completed(parsed: Option<AnalyzerOutput>)

  /** The chat model, seen as the outcome of the `k`-th call (0-based) with a given request. */
  type ChatModel = (nat, ChatRequest) -> ChatOutcome

  // The service builds its prompts with `Prompt.Template`; the loop is stated for any valid wording.

  /** The messages for one prompt: the fixed system prompt, the prompt as the user, an empty assistant turn. */
  function Messages(prompt: string): (m: seq<Message>)
    ensures |m| == 3
    ensures m[0].role == System && m[1].role == User && m[2].role == Assistant
    ensures m[0].content == SystemPrompt && m[1].content == prompt && m[2].content == ""
  {
    [Message(System, SystemPrompt), Message(User, prompt), Message(Assistant, "")]
  }

  /** The chat request for one submission: only the shared context and that submission reach the prompt. */
  function RequestFor(numberToWords: string -> string, w: Wording, req: AnalyzeRequest, submission: string): (c: ChatRequest)
    requires ValidWording(w)
    ensures c.model == ModelName && c.temperature == Temperature && c.topP == TopP
    ensures |c.messages| == 3 && c.messages[0] == Message(System, SystemPrompt) && c.messages[2] == Message(Assistant, "")
    ensures c.messages[1].role == User && c.messages[1].content
         == PromptFor(w, numberToWords, req.sqlEnvironment, req.dbSchema, req.task, req.solutions, submission)
  {
    ChatRequest(ModelName,
                Messages(PromptFor(w, numberToWords, req.sqlEnvironment, req.dbSchema, req.task, req.solutions, submission)),
                Temperature, TopP)
  }

  /** The empty-response message already carries the error prefix, so the answer shows it twice. */
  lemma EmptyMessageHasPrefix()
    ensures ErrorPrefix + EmptyResponseMessage == ErrorPrefix + ErrorPrefix + "LLM response empty"
  {
    assert EmptyResponseMessage == ErrorPrefix + "LLM response empty";
  }

  /** The answer for one model outcome. */
  function Grade(outcome: ChatOutcome): (r: AnalyzeResponse)
    ensures r.correct <==> outcome.Completed? && outcome.parsed.Some? && outcome.parsed.value.studentFeedback.overallCorrectness
    ensures r.correct ==> r.feedback == ""
    ensures outcome.Completed? && outcome.parsed.Some? && !r.correct ==>
      r.feedback == outcome.parsed.value.studentFeedback.overallFeedback
    ensures outcome.Raised? ==> r.feedback == ErrorPrefix + outcome.message
    ensures outcome == Completed(None) ==> r.feedback == ErrorPrefix + ErrorPrefix + "LLM response empty"
  {
    match outcome
    case Raised(msg) => AnalyzeResponse(false, ErrorPrefix + msg)
    case Completed(None) =>
      EmptyMessageHasPrefix();
      AnalyzeResponse(false, ErrorPrefix + EmptyResponseMessage)
    case Completed(Some(out)) =>
      var correct := out.studentFeedback.overallCorrectness;
      AnalyzeResponse(correct, if !correct then out.studentFeedback.overallFeedback else "")
  }

  /** The answer to the `k`-th submission: the grade of the `k`-th call, made with that submission's request. */
  function Answer(model: ChatModel, numberToWords: string -> string, w: Wording, req: AnalyzeRequest, k: nat): AnalyzeResponse
    requires ValidWording(w)
    requires k < |req.submissions|
  {
    Grade(model(k, RequestFor(numberToWords, w, req, req.submissions[k])))
  }

  /**
   * `analyze_sql`: an empty submission list is refused before any call;
   * otherwise the `k`-th submission gets the `k`-th model call and its own
   * answer, in submission order.
   */
  method AnalyzeSql(model: ChatModel, numberToWords: string -> string, w: Wording, req: AnalyzeRequest)
    returns (r: Result<seq<AnalyzeResponse>, HttpError>)
    requires ValidWording(w)
    ensures |req.submissions| == 0 <==> r.Err?
    ensures r.Err? ==> r.error == HttpError(400, NoSubmissionsDetail)
    ensures r.Ok? ==> |r.value| == |req.submissions|
    ensures r.Ok? ==> forall k :: 0 <= k < |r.value| ==> r.value[k] == Answer(model, numberToWords, w, req, k)
    ensures r.Ok? ==> r.value == Answers(model, numberToWords, w, req)
  {
    if |req.submissions| == 0 {
      return Err(HttpError(400, NoSubmissionsDetail));
    }
    var answer := (k: nat) => if k < |req.submissions| then Answer(model, numberToWords, w, req, k) else AnalyzeResponse(false, "");
    var results := CollectInOrder(|req.submissions|, answer);
    return Ok(results);
  }

  /** `[f(0), ..., f(n - 1)]`, appended one at a time in index order. */
  method CollectInOrder<T>(n: nat, f: nat -> T) returns (r: seq<T>)
    ensures |r| == n
    ensures forall k :: 0 <= k < n ==> r[k] == f(k)
  {
    r := [];
    var k := 0;
    while k < n
      invariant 0 <= k <= n
      invariant |r| == k
      invariant forall j :: 0 <= j < k ==> r[j] == f(j)
    {
      r := r + [f(k)];
      k := k + 1;
    }
  }

  /** Every submission's answer, as one sequence; a correct answer carries no feedback. */
  function Answers(model: ChatModel, numberToWords: string -> string, w: Wording, req: AnalyzeRequest): (a: seq<AnalyzeResponse>)
    requires ValidWording(w)
    ensures |a| == |req.submissions|
    ensures forall k :: 0 <= k < |a| && a[k].correct ==> a[k].feedback == ""
  {
    seq(|req.submissions|, k requires 0 <= k < |req.submissions| => Answer(model, numberToWords, w, req, k))
  }

  /**
   * A failure on one submission does not reach the others: two models that
   * agree on every call but the `k`-th give the same answers everywhere else.
   */
  lemma FailureIsolation(m1: ChatModel, m2: ChatModel, numberToWords: string -> string, w: Wording, req: AnalyzeRequest, k: nat)
    requires ValidWording(w)
    requires forall j: nat, c :: j != k ==> m1(j, c) == m2(j, c)
    ensures var a1, a2 := Answers(m1, numberToWords, w, req), Answers(m2, numberToWords, w, req);
      forall j :: 0 <= j < |a1| && j != k ==> a1[j] == a2[j]
  {
  }

  /** The requests the loop sends do not depend on the feedback language, the ids or the execution results. */
  lemma RequestsIgnoreExtraFields(numberToWords: string -> string, w: Wording, req1: AnalyzeRequest, req2: AnalyzeRequest, submission: string)
    requires ValidWording(w)
    requires req1.sqlEnvironment == req2.sqlEnvironment && req1.dbSchema == req2.dbSchema
    requires req1.task == req2.task && req1.solutions == req2.solutions
    ensures RequestFor(numberToWords, w, req1, submission) == RequestFor(numberToWords, w, req2, submission)
  {
  }

  /** So two requests differing only in those fields are answered alike, call for call. */
  lemma AnswersIgnoreExtraFields(model: ChatModel, numberToWords: string -> string, w: Wording, req1: AnalyzeRequest, req2: AnalyzeRequest)
    requires ValidWording(w)
    requires req1.sqlEnvironment == req2.sqlEnvironment && req1.dbSchema == req2.dbSchema
    requires req1.task == req2.task && req1.solutions == req2.solutions
    requires req1.submissions == req2.submissions
    ensures Answers(model, numberToWords, w, req1) == Answers(model, numberToWords, w, req2)
  {
    forall k | 0 <= k < |req1.submissions|
      ensures RequestFor(numberToWords, w, req1, req1.submissions[k]) == RequestFor(numberToWords, w, req2, req2.submissions[k])
    {
      RequestsIgnoreExtraFields(numberToWords, w, req1, req2, req1.submissions[k]);
    }
  }
}

=== FILE: auth.dfy ===
/**
 * The persistence proxy's bearer-token check: the second space-separated
 * field of the `Authorization` header is hashed and looked up among the
 * registered consumers.
 */
module Auth {
  import opened Wrappers
  import opened Text

  const StatusUnauthorized: nat := 401

  // ------------------------------------------------------------ header

  /** The bytes `HeaderValue::to_str` accepts: visible ASCII and the horizontal tab. */
  predicate IsVisibleAscii(b: byte) {
    (32 <= b < 127) || b == 9
  }

  /** `HeaderValue::to_str`: the header as text when every byte is accepted. */
  function HeaderText(h: seq<byte>): (r: Option<string>)
    ensures r.Some? <==> forall i :: 0 <= i < |h| ==> IsVisibleAscii(h[i])
    ensures r.Some? ==> |r.value| == |h| && forall i :: 0 <= i < |h| ==> r.value[i] as int == h[i] as int
  {
    if |h| == 0 then Some("")
    else if !IsVisibleAscii(h[0]) then None
    else
      match HeaderText(h[1..])
      case None => None
      case Some(rest) => Some([h[0] as int as char] + rest)
  }

  // ------------------------------------------------------------- split

  /** The position of the first space. */
  function FirstSpace(s: string): (i: nat)
    requires ' ' in s
    ensures i < |s| && s[i] == ' ' && ' ' !in s[..i]
  {
    if s[0] == ' ' then 0
    else
      assert ' ' in s[1..] by { var k :| 0 <= k < |s| && s[k] == ' '; assert s[1..][k - 1] == ' '; }
      var j := FirstSpace(s[1..]);
      assert s[..j + 1] == [s[0]] + s[1..][..j];
      j + 1
  }

  /** `str::split(" ")`: the fields between single spaces, empty ones included. */
  function Split(s: string): (parts: seq<string>)
    ensures |parts| >= 1
    ensures forall k :: 0 <= k < |parts| ==> ' ' !in parts[k]
    decreases |s|
  {
    if ' ' !in s then [s]
    else
      var i := FirstSpace(s);
      [s[..i]] + Split(s[i + 1..])
  }

  /** Joining the fields with single spaces gives the header back. */
  lemma {:induction false} SplitJoin(s: string)
    ensures Join(Split(s), " ") == s
    decreases |s|
  {
    if ' ' in s {
      var i := FirstSpace(s);
      var rest := Split(s[i + 1..]);
      SplitJoin(s[i + 1..]);
      assert Split(s)[1..] == rest;
      assert s == s[..i] + " " + s[i + 1..];
    }
  }

  /** The number of fields is one more than the number of spaces. */
  lemma {:induction false} SplitCount(s: string)
    ensures |Split(s)| == multiset(s)[' '] + 1
    decreases |s|
  {
    if ' ' in s {
      var i := FirstSpace(s);
      SplitCount(s[i + 1..]);
      assert s == s[..i] + [' '] + s[i + 1..];
      assert multiset(s[..i])[' '] == 0;
    } else {
      assert multiset(s)[' '] == 0;
    }
  }

  /** `split(" ").nth(1)`: the second field, which exists exactly when the header has a space. */
  function Token(s: string): (t: Option<string>)
    ensures t.None? <==> ' ' !in s
    ensures t.Some? ==> ' ' !in t.value
  {
    var parts := Split(s);
    if |parts| >= 2 then Some(parts[1]) else None
  }

  /**
   * The token read off by position: it starts just after the first space and
   * runs to the next space or the end, so anything after a second space is
   * ignored and two spaces in a row give the empty token.
   */
  lemma TokenByPosition(s: string)
    requires ' ' in s
    ensures var i := FirstSpace(s);
      var rest := s[i + 1..];
      Token(s) == Some(if ' ' in rest then rest[..FirstSpace(rest)] else rest)
  {
    var i := FirstSpace(s);
    var rest := s[i + 1..];
    assert Split(s) == [s[..i]] + Split(rest);
  }

  // ------------------------------------------------------------ lookup

  datatype Consumer = Consumer(id: int, name: string, tokenHash: string)

  datatype DbError = DbError(message: string)

  /** `needle` occurs somewhere in `hay` (the `LIKE '%needle%'` filter). */
  predicate Contains(hay: string, needle: string) {
    exists i: nat | i <= |hay| :: OccursAt(hay, needle, i)
  }

  /** `needle` occurs in `hay` starting at position `i`. */
  predicate OccursAt(hay: string, needle: string, i: nat) {
    i + |needle| <= |hay| && hay[i..i + |needle|] == needle
  }

  /** The first consumer, in the order the store returns them, whose token hash contains `hashed`. */
  function FirstMatch(consumers: seq<Consumer>, hashed: string): (r: Option<Consumer>)
    ensures r.Some? <==> exists k :: 0 <= k < |consumers| && Contains(consumers[k].tokenHash, hashed)
    ensures r.Some? ==> r.value in consumers && Contains(r.value.tokenHash, hashed)
  {
    if |consumers| == 0 then None
    else if Contains(consumers[0].tokenHash, hashed) then Some(consumers[0])
    else
      var r := FirstMatch(consumers[1..], hashed);
      assert forall k :: 1 <= k < |consumers| ==> consumers[k] == consumers[1..][k - 1];
      r
  }

  /**
   * The extractor: a missing, non-text or space-free header, a failed
   * query or no matching consumer are all 401; a match gives that
   * consumer's id. `hash` is the hex digest the proxy stores.
   */
  function Authenticate(header: Option<seq<byte>>, hash: string -> string,
                        consumers: Result<seq<Consumer>, DbError>): (r: Result<int, nat>)
    ensures r.Err? ==> r.error == StatusUnauthorized
    ensures header.None? ==> r.Err?
    ensures header.Some? && HeaderText(header.value).None? ==> r.Err?
    ensures header.Some? && HeaderText(header.value).Some? && ' ' !in HeaderText(header.value).value ==> r.Err?
    ensures consumers.Err? ==> r.Err?
    ensures r.Ok? <==>
      && header.Some? && HeaderText(header.value).Some? && Token(HeaderText(header.value).value).Some?
      && consumers.Ok?
      && exists c :: c in consumers.value && Contains(c.tokenHash, hash(Token(HeaderText(header.value).value).value))
    ensures r.Ok? ==>
      exists c :: c in consumers.value && c.id == r.value
                  && Contains(c.tokenHash, hash(Token(HeaderText(header.value).value).value))
  {
    if header.None? then Err(StatusUnauthorized)
    else match HeaderText(header.value)
      case None => Err(StatusUnauthorized)
      case Some(text) =>
        match Token(text)
        case None => Err(StatusUnauthorized)
        case Some(token) =>
          match consumers
          case Err(_) => Err(StatusUnauthorized)
          case Ok(table) =>
            match FirstMatch(table, hash(token))
            case None => Err(StatusUnauthorized)
            case Some(c) => Ok(c.id)
  }
}

=== FILE: config.dfy ===
/**
 * The SQL runner's start-up configuration: the hex-encoded 32-byte password
 * hash key (Base16, section 8 of RFC 4648, either letter case) and the
 * defaults of the optional settings.
 */
module RunnerConfig {
  import opened Wrappers
  import opened Text

  /** The value of a Base16 digit, in either case. */
  function HexDigitValue(c: byte): (r: Option<byte>)
    ensures r.Some? ==> r.value < 16
  {
    if '0' as byte <= c <= '9' as byte then Some(c - '0' as byte)
    else if 'a' as byte <= c <= 'f' as byte then Some(c - 'a' as byte + 10)
    else if 'A' as byte <= c <= 'F' as byte then Some(c - 'A' as byte + 10)
    else None
  }

  predicate IsHexDigit(c: byte) {
    HexDigitValue(c).Some?
  }

  /** `b` is the byte the two digits at `s[at]` and `s[at + 1]` spell, high nibble first. */
  predicate PairValue(b: byte, s: seq<byte>, at: nat)
    requires at + 1 < |s| && IsHexDigit(s[at]) && IsHexDigit(s[at + 1])
  {
    b as int == 16 * HexDigitValue(s[at]).value as int + HexDigitValue(s[at + 1]).value as int
  }

  /** The errors of `hex::decode`. */
  datatype HexError = OddLength | InvalidHexCharacter(c: byte, index: nat)

  /** Decodes the digit pairs from position `2 * pair` on; the first invalid character, left to right, is reported. */
  function DecodePairs(s: seq<byte>, pair: nat): (r: Result<seq<byte>, HexError>)
    requires |s| % 2 == 0 && 2 * pair <= |s|
    ensures r.Ok? <==> forall i :: 2 * pair <= i < |s| ==> IsHexDigit(s[i])
    ensures r.Ok? ==> |r.value| == |s| / 2 - pair
    ensures r.Ok? ==> forall k :: 0 <= k < |r.value| ==> PairValue(r.value[k], s, 2 * (pair + k))
    ensures r.Err? ==> (r.error.InvalidHexCharacter?
                        && 2 * pair <= r.error.index < |s| && s[r.error.index] == r.error.c && !IsHexDigit(r.error.c)
                        && forall i :: 2 * pair <= i < r.error.index ==> IsHexDigit(s[i]))
    decreases |s| - 2 * pair
  {
    if 2 * pair == |s| then Ok([])
    else
      var hi := s[2 * pair];
      var lo := s[2 * pair + 1];
      if !IsHexDigit(hi) then Err(InvalidHexCharacter(hi, 2 * pair))
      else if !IsHexDigit(lo) then Err(InvalidHexCharacter(lo, 2 * pair + 1))
      else
        match DecodePairs(s, pair + 1)
        case Err(e) => Err(e)
        case Ok(rest) => Ok([16 * HexDigitValue(hi).value + HexDigitValue(lo).value] + rest)
  }

  /** `hex::decode` on the string's bytes: an odd length is rejected before any character is looked at. */
  function HexDecode(s: seq<byte>): (r: Result<seq<byte>, HexError>)
    ensures |s| % 2 != 0 ==> r == Err(OddLength)
    ensures r.Ok? <==> |s| % 2 == 0 && forall i :: 0 <= i < |s| ==> IsHexDigit(s[i])
    ensures r.Ok? ==> |r.value| == |s| / 2
  {
    if |s| % 2 != 0 then Err(OddLength) else DecodePairs(s, 0)
  }

  /** The error of `hex_to_bytes32`: the decoder's, or a valid string of the wrong length. */
  datatype KeyError = BadHex(cause: HexError) | WrongLength(message: string)

  /** `hex_to_bytes32`: exactly 32 decoded bytes, or the reason there are not. */
  function HexToBytes32(s: seq<byte>): (r: Result<seq<byte>, KeyError>)
    ensures r.Ok? <==> |s| == 64 && forall i :: 0 <= i < |s| ==> IsHexDigit(s[i])
    ensures r.Ok? ==> |r.value| == 32 && HexDecode(s) == Ok(r.value)
    ensures |s| % 2 != 0 ==> r == Err(BadHex(OddLength))
    ensures HexDecode(s).Ok? && |s| != 64 ==> r == Err(WrongLength("Expected 32 bytes, got " + DecimalString(|s| / 2)))
  {
    match HexDecode(s)
    case Err(e) => Err(BadHex(e))
    case Ok(bytes) =>
      if |bytes| != 32 then Err(WrongLength("Expected 32 bytes, got " + DecimalString(|bytes|)))
      else Ok(bytes)
  }

  // ------------------------------------------- an independent encoder

  function LowerHexDigit(v: byte): (c: byte)
    requires v < 16
    ensures HexDigitValue(c) == Some(v)
  {
    if v < 10 then '0' as byte + v else 'a' as byte + (v - 10)
  }

  function UpperHexDigit(v: byte): (c: byte)
    requires v < 16
    ensures HexDigitValue(c) == Some(v)
  {
    if v < 10 then '0' as byte + v else 'A' as byte + (v - 10)
  }

  /** The two digits of one byte, high nibble first. */
  function EncodeByte(b: byte, upper: bool): (s: seq<byte>)
    ensures |s| == 2
    ensures HexDigitValue(s[0]) == Some(b / 16) && HexDigitValue(s[1]) == Some(b % 16)
  {
    if upper then [UpperHexDigit(b / 16), UpperHexDigit(b % 16)]
    else [LowerHexDigit(b / 16), LowerHexDigit(b % 16)]
  }

  /** Base16 encoding, two digits per byte, in lower or upper case. */
  function HexEncode(bytes: seq<byte>, upper: bool): (s: seq<byte>)
    ensures |s| == 2 * |bytes|
  {
    if |bytes| == 0 then [] else EncodeByte(bytes[0], upper) + HexEncode(bytes[1..], upper)
  }

  /** Wherever a hex encoding starts at an even position, decoding from there gives the encoded bytes back. */
  lemma {:induction false} DecodePairsOfEncoding(s: seq<byte>, p: nat, bytes: seq<byte>, upper: bool)
    requires |s| % 2 == 0 && 2 * p <= |s|
    requires s[2 * p..] == HexEncode(bytes, upper)
    ensures DecodePairs(s, p) == Ok(bytes)
    decreases |bytes|
  {
    if |bytes| > 0 {
      var b := bytes[0];
      var pair := EncodeByte(b, upper);
      assert s[2 * p..] == pair + HexEncode(bytes[1..], upper);
      assert s[2 * (p + 1)..] == HexEncode(bytes[1..], upper) by {
        assert s[2 * (p + 1)..] == s[2 * p..][2..];
      }
      DecodePairsOfEncoding(s, p + 1, bytes[1..], upper);
      assert s[2 * p] == pair[0] && s[2 * p + 1] == pair[1] by {
        assert s[2 * p] == s[2 * p..][0] && s[2 * p + 1] == s[2 * p..][1];
      }
      EncodeByteDecodes(b, upper);
      DecodePairsStep(s, p, b, bytes[1..]);
      assert bytes == [b] + bytes[1..];
    }
  }

  /** The two digits of a byte spell that byte, high nibble first. */
  lemma EncodeByteDecodes(b: byte, upper: bool)
    ensures var pair := EncodeByte(b, upper);
      && IsHexDigit(pair[0]) && IsHexDigit(pair[1])
      && 16 * HexDigitValue(pair[0]).value + HexDigitValue(pair[1]).value == b
  {
  }

  /** A valid pair spelling `b` in front of a decodable rest decodes to `b` followed by the rest. */
  lemma DecodePairsStep(s: seq<byte>, p: nat, b: byte, rest: seq<byte>)
    requires |s| % 2 == 0 && 2 * p + 2 <= |s|
    requires IsHexDigit(s[2 * p]) && IsHexDigit(s[2 * p + 1])
    requires 16 * HexDigitValue(s[2 * p]).value + HexDigitValue(s[2 * p + 1]).value == b
    requires DecodePairs(s, p + 1) == Ok(rest)
    ensures DecodePairs(s, p) == Ok([b] + rest)
  {
  }

  /** Every 32-byte key, encoded in either case, decodes back to itself. */
  lemma HexToBytes32RoundTrip(key: seq<byte>, upper: bool)
    requires |key| == 32
    ensures HexToBytes32(HexEncode(key, upper)) == Ok(key)
  {
    var s := HexEncode(key, upper);
    assert s[2 * 0..] == s;
    DecodePairsOfEncoding(s, 0, key, upper);
  }

  // ------------------------------------------------------------- Config

  const DefaultPort: nat := 8080
  const DefaultMaxRowsInResultSet: nat := 1000
  const DefaultStatementTimeout: nat := 10000

  /** The settings as read from the environment, each possibly absent; numbers already parsed. */
  datatype ConfigFields = ConfigFields(
    port: Option<nat>,
    dbPassword: Option<string>,
    dbUsername: Option<string>,
    dbHost: Option<string>,
    passwordHashKey: Option<seq<byte>>,
    maxRowsInResultSet: Option<nat>,
    statementTimeout: Option<nat>)

  datatype Config = Config(
    port: nat,
    dbPassword: string,
    dbUsername: string,
    dbHost: string,
    passwordHashKey: seq<byte>,
    maxRowsInResultSet: nat,
    statementTimeout: nat)

  datatype ConfigError = MissingField(field: string) | InvalidKey(cause: KeyError)

  /**
   * Deserialising `Config`: a key that does not decode fails as soon as it is
   * read; then the first missing required field, in declaration order;
   * absent optional fields take their defaults.
   */
  function ReadConfig(f: ConfigFields): (r: Result<Config, ConfigError>)
    ensures r.Ok? <==> (f.dbPassword.Some? && f.dbUsername.Some? && f.dbHost.Some? && f.passwordHashKey.Some?
                        && HexToBytes32(f.passwordHashKey.value).Ok?)
    ensures r.Ok? ==> |r.value.passwordHashKey| == 32
    ensures r.Ok? ==> r.value.port == (if f.port.Some? then f.port.value else 8080)
    ensures r.Ok? ==> r.value.maxRowsInResultSet == (if f.maxRowsInResultSet.Some? then f.maxRowsInResultSet.value else 1000)
    ensures r.Ok? ==> r.value.statementTimeout == (if f.statementTimeout.Some? then f.statementTimeout.value else 10000)
    ensures BadKey(f) ==> r == Err(InvalidKey(HexToBytes32(f.passwordHashKey.value).error))
    ensures !BadKey(f) && f.dbPassword.None? ==> r == Err(MissingField("db_password"))
    ensures !BadKey(f) && f.dbPassword.Some? && f.dbUsername.None? ==> r == Err(MissingField("db_username"))
    ensures !BadKey(f) && f.dbPassword.Some? && f.dbUsername.Some? && f.dbHost.None? ==> r == Err(MissingField("db_host"))
    ensures f.dbPassword.Some? && f.dbUsername.Some? && f.dbHost.Some? && f.passwordHashKey.None? ==>
      r == Err(MissingField("password_hash_key"))
    ensures r.Ok? ==> && r.value.dbPassword == f.dbPassword.value
                      && r.value.dbUsername == f.dbUsername.value
                      && r.value.dbHost == f.dbHost.value
                      && r.value.passwordHashKey == HexToBytes32(f.passwordHashKey.value).value
  {
    if BadKey(f) then
      Err(InvalidKey(HexToBytes32(f.passwordHashKey.value).error))
    else if f.dbPassword.None? then Err(MissingField("db_password"))
    else if f.dbUsername.None? then Err(MissingField("db_username"))
    else if f.dbHost.None? then Err(MissingField("db_host"))
    else if f.passwordHashKey.None? then Err(MissingField("password_hash_key"))
    else
      Ok(Config(
        if f.port.Some? then f.port.value else DefaultPort,
        f.dbPassword.value,
        f.dbUsername.value,
        f.dbHost.value,
        HexToBytes32(f.passwordHashKey.value).value,
        if f.maxRowsInResultSet.Some? then f.maxRowsInResultSet.value else DefaultMaxRowsInResultSet,
        if f.statementTimeout.Some? then f.statementTimeout.value else DefaultStatementTimeout))
  }

  /** A key is given but does not decode to 32 bytes. */
  predicate BadKey(f: ConfigFields) {
    f.passwordHashKey.Some? && HexToBytes32(f.passwordHashKey.value).Err?
  }

  /**
   * With the required settings present, a key written as the hex encoding of
   * 32 bytes, in either case, loads as exactly those bytes.
   */
  lemma ReadConfigDecodesKey(f: ConfigFields, key: seq<byte>, upper: bool)
    requires |key| == 32
    requires f.dbPassword.Some? && f.dbUsername.Some? && f.dbHost.Some?
    requires f.passwordHashKey == Some(HexEncode(key, upper))
    ensures ReadConfig(f).Ok?
    ensures ReadConfig(f).value.passwordHashKey == key
  {
    HexToBytes32RoundTrip(key, upper);
  }
}

=== FILE: db.dfy ===
/**
 * The database core of the SQL runner: shaping a fetched row stream into a
 * result set (`extract`) and comparing two result sets under the requested
 * normalisations (`compare`). Running SQL is left to the caller: a query's
 * rows arrive as a stream, and an executed query as its outcome.
 */
module Db {
  import opened Wrappers
  import opened Models
  import opened Sorting
  import N = Normalise

  /** A driver error, by its display text. */
  datatype DbError = DbError(message: string)

  datatype SqlExecutionError =
    | Init(cause: DbError)
    | Execute(cause: DbError)
    | Other(cause: DbError)
    | ColumnDecodeError(column: string)

  datatype RowNormalisation = NoRowNormalization | SortRows

  datatype ColumnNormalisation = NoColumnNormalization | SortColumnsByName | NumberColumnsByOrder

  // ------------------------------------------------------------- extract

  /**
   * What the driver answers to each `try_get::<T>` on one cell, for the
   * types the decoder tries, in its order. `asDecimal` is `Some(None)` for a
   * NUMERIC the conversion to `f64` rejects; `asF32` is already widened to
   * `f64` (exact); the date renderings are what `to_string` prints.
   */
  datatype Cell = Cell(
    asString: Option<string>,
    asDecimal: Option<Option<F64>>,
    asF64: Option<F64>,
    asF32: Option<F64>,
    asI64: Option<int>,
    asI32: Option<int>,
    asBool: Option<bool>,
    asDateTime: Option<string>,
    asDate: Option<string>)

  /** A fetched row: its column names in order, and the cell the driver returns for a name. */
  datatype PgRow = PgRow(columns: seq<string>, cellNamed: string -> Cell)

  /** The fetched stream: rows, or the driver's errors. */
  type RowStream = seq<Result<PgRow, DbError>>

  /** The driver accepts none of the types the decoder tries. */
  predicate NoTypeAccepted(c: Cell) {
    && c.asString.None? && c.asDecimal.None? && c.asF64.None? && c.asF32.None?
    && c.asI64.None? && c.asI32.None? && c.asBool.None? && c.asDateTime.None? && c.asDate.None?
  }

  /** The driver reads the cell neither as text nor as NUMERIC. */
  predicate NotTextOrNumeric(c: Cell) {
    c.asString.None? && c.asDecimal.None?
  }

  /** Nor as either float type. */
  predicate NoFloat(c: Cell) {
    NotTextOrNumeric(c) && c.asF64.None? && c.asF32.None?
  }

  /** Nor as either integer type. */
  predicate NoNumber(c: Cell) {
    NoFloat(c) && c.asI64.None? && c.asI32.None?
  }

  /** The decode ladder for one cell: the first type the driver accepts decides the value. */
  function DecodeCell(name: string, c: Cell): (r: Result<SqlValue, SqlExecutionError>)
    ensures r.Err? ==> r.error == ColumnDecodeError(name)
    ensures r.Err? <==> c.asString.None? && (c.asDecimal == Some(None) || NoTypeAccepted(c))
    ensures c.asString.Some? ==> r == Ok(Text(c.asString.value))
    ensures c.asString.None? && c.asDecimal.Some? ==> (r.Ok? <==> c.asDecimal.value.Some?)
    ensures r.Ok? && r.value.Int? ==> c.asString.None? && c.asDecimal.None? && c.asF64.None? && c.asF32.None?
    ensures r.Ok? && r.value.Bool? ==> c.asBool == Some(r.value.b)
    ensures c.asString.None? && c.asDecimal.Some? && c.asDecimal.value.Some? ==> r == Ok(Float(c.asDecimal.value.value))
    ensures NotTextOrNumeric(c) && c.asF64.Some? ==> r == Ok(Float(c.asF64.value))
    ensures NotTextOrNumeric(c) && c.asF64.None? && c.asF32.Some? ==> r == Ok(Float(c.asF32.value))
    ensures NoFloat(c) && c.asI64.Some? ==> r == Ok(Int(c.asI64.value))
    ensures NoFloat(c) && c.asI64.None? && c.asI32.Some? ==> r == Ok(Int(c.asI32.value))
    ensures NoNumber(c) && c.asBool.Some? ==> r == Ok(Bool(c.asBool.value))
    ensures NoNumber(c) && c.asBool.None? && c.asDateTime.Some? ==> r == Ok(Text(c.asDateTime.value))
    ensures NoNumber(c) && c.asBool.None? && c.asDateTime.None? && c.asDate.Some? ==> r == Ok(Text(c.asDate.value))
  {
    if c.asString.Some? then Ok(Text(c.asString.value))
    else if c.asDecimal.Some? then
      (if c.asDecimal.value.Some? then Ok(Float(c.asDecimal.value.value)) else Err(ColumnDecodeError(name)))
    else if c.asF64.Some? then Ok(Float(c.asF64.value))
    else if c.asF32.Some? then Ok(Float(c.asF32.value))
    else if c.asI64.Some? then Ok(Int(c.asI64.value))
    else if c.asI32.Some? then Ok(Int(c.asI32.value))
    else if c.asBool.Some? then Ok(Bool(c.asBool.value))
    else if c.asDateTime.Some? then Ok(Text(c.asDateTime.value))
    else if c.asDate.Some? then Ok(Text(c.asDate.value))
    else Err(ColumnDecodeError(name))
  }

  /**
   * An INT4 cell and a NUMERIC cell decode to values of different variants,
   * so `SELECT 1` and `SELECT 1.0` never compare equal.
   */
  lemma IntegerAndNumericDecodeApart(name: string, n: int, x: F64)
    ensures var int4 := Cell(None, None, None, None, None, Some(n), None, None, None);
      var numeric := Cell(None, Some(Some(x)), None, None, None, None, None, None, None);
      && DecodeCell(name, int4) == Ok(Int(n))
      && DecodeCell(name, numeric) == Ok(Float(x))
      && DecodeCell(name, int4) != DecodeCell(name, numeric)
  {
  }

  /** The cell of column `names[j]` fails to decode and every cell before it decodes. */
  ghost predicate FirstFailingColumn(row: PgRow, names: seq<string>, j: int) {
    && 0 <= j < |names|
    && DecodeCell(names[j], row.cellNamed(names[j])).Err?
    && forall k :: 0 <= k < j ==> DecodeCell(names[k], row.cellNamed(names[k])).Ok?
  }

  /** Decodes the named cells of a row in order, stopping at the first failure. */
  function DecodeCells(row: PgRow, names: seq<string>): (r: Result<Row, SqlExecutionError>)
    ensures r.Ok? <==> forall j :: 0 <= j < |names| ==> DecodeCell(names[j], row.cellNamed(names[j])).Ok?
    ensures r.Ok? ==> |r.value| == |names|
    ensures r.Ok? ==> forall j :: 0 <= j < |names| ==> r.value[j] == DecodeCell(names[j], row.cellNamed(names[j])).value
    ensures r.Err? ==> exists j :: FirstFailingColumn(row, names, j) && r.error == ColumnDecodeError(names[j])
  {
    if |names| == 0 then Ok([])
    else match DecodeCell(names[0], row.cellNamed(names[0]))
      case Err(e) => assert FirstFailingColumn(row, names, 0); Err(e)
      case Ok(v) =>
        match DecodeCells(row, names[1..])
        case Err(e) =>
          assert exists j :: FirstFailingColumn(row, names, j) && e == ColumnDecodeError(names[j]) by {
            var j :| FirstFailingColumn(row, names[1..], j) && e == ColumnDecodeError(names[1..][j]);
            assert FirstFailingColumn(row, names, j + 1);
          }
          Err(e)
        case Ok(vs) =>
          assert forall j :: 1 <= j < |names| ==> names[j] == names[1..][j - 1];
          Ok([v] + vs)
  }

  /** `.take(max).try_collect()`: the first `max` items, or the first error among them. */
  function FetchRows(stream: RowStream, max: nat): (r: Result<seq<PgRow>, SqlExecutionError>)
    ensures var cap := Cap(stream, max);
      && (r.Ok? <==> forall i :: 0 <= i < cap ==> stream[i].Ok?)
      && (r.Ok? ==> |r.value| == cap && forall i :: 0 <= i < cap ==> r.value[i] == stream[i].value)
    ensures r.Err? ==> exists i :: FirstStreamError(stream, max, i) && r.error == Execute(stream[i].error)
  {
    if |stream| == 0 || max == 0 then Ok([])
    else match stream[0]
      case Err(e) => assert FirstStreamError(stream, max, 0); Err(Execute(e))
      case Ok(row) =>
        match FetchRows(stream[1..], max - 1)
        case Err(e) =>
          assert exists i :: FirstStreamError(stream, max, i) && e == Execute(stream[i].error) by {
            var i :| FirstStreamError(stream[1..], max - 1, i) && e == Execute(stream[1..][i].error);
            FirstStreamErrorShift(stream, max, i);
          }
          Err(e)
        case Ok(rows) => Ok([row] + rows)
  }

  /** Decodes each row with its own columns, stopping at the first failure. */
  function DecodeRows(rows: seq<PgRow>): (r: Result<seq<Row>, SqlExecutionError>)
    ensures r.Ok? <==> forall i :: 0 <= i < |rows| ==> DecodeCells(rows[i], rows[i].columns).Ok?
    ensures r.Ok? ==> |r.value| == |rows|
    ensures r.Ok? ==> forall i :: 0 <= i < |rows| ==> r.value[i] == DecodeCells(rows[i], rows[i].columns).value
    ensures r.Err? ==> exists i :: FirstFailingRow(rows, i) && r.error == DecodeCells(rows[i], rows[i].columns).error
  {
    if |rows| == 0 then Ok([])
    else match DecodeCells(rows[0], rows[0].columns)
      case Err(e) => assert FirstFailingRow(rows, 0); Err(e)
      case Ok(cells) =>
        match DecodeRows(rows[1..])
        case Err(e) =>
          assert exists i :: FirstFailingRow(rows, i) && e == DecodeCells(rows[i], rows[i].columns).error by {
            var i :| FirstFailingRow(rows[1..], i) && e == DecodeCells(rows[1..][i], rows[1..][i].columns).error;
            FirstFailingRowShift(rows, i);
          }
          Err(e)
        case Ok(rest) =>
          DecodeRowsCons(rows, cells, rest);
          Ok([cells] + rest)
  }

  /** A decoded first row in front of the decoded rest is every row decoded. */
  lemma DecodeRowsCons(rows: seq<PgRow>, cells: Row, rest: seq<Row>)
    requires |rows| > 0 && DecodeCells(rows[0], rows[0].columns) == Ok(cells)
    requires |rest| == |rows| - 1
    requires forall i :: 0 <= i < |rest| ==> DecodeCells(rows[1..][i], rows[1..][i].columns).Ok?
    requires forall i :: 0 <= i < |rest| ==> rest[i] == DecodeCells(rows[1..][i], rows[1..][i].columns).value
    ensures forall i :: 0 <= i < |rows| ==> DecodeCells(rows[i], rows[i].columns).Ok?
    ensures forall i :: 0 <= i < |rows| ==> ([cells] + rest)[i] == DecodeCells(rows[i], rows[i].columns).value
  {
    assert forall i :: 1 <= i < |rows| ==> rows[i] == rows[1..][i - 1];
  }

  /** Row `i` fails to decode and every row before it decodes. */
  ghost predicate FirstFailingRow(rows: seq<PgRow>, i: int) {
    && 0 <= i < |rows|
    && DecodeCells(rows[i], rows[i].columns).Err?
    && forall k :: 0 <= k < i ==> DecodeCells(rows[k], rows[k].columns).Ok?
  }

  /** Behind a row that decodes, the first failing row of the rest is the first failing row of all. */
  lemma FirstFailingRowShift(rows: seq<PgRow>, i: int)
    requires |rows| > 0 && DecodeCells(rows[0], rows[0].columns).Ok?
    requires FirstFailingRow(rows[1..], i)
    ensures FirstFailingRow(rows, i + 1) && rows[i + 1] == rows[1..][i]
  {
    assert forall k :: 1 <= k < i + 1 ==> rows[k] == rows[1..][k - 1];
  }

  /** How many items `take(max)` lets through. */
  function Cap(stream: RowStream, max: nat): (n: nat)
    ensures n <= |stream| && n <= max
    ensures n == |stream| || n == max
  {
    if |stream| < max then |stream| else max
  }

  /** Item `i` is the first driver error among the items `take(max)` lets through. */
  ghost predicate FirstStreamError(stream: RowStream, max: nat, i: int) {
    && 0 <= i < Cap(stream, max)
    && stream[i].Err?
    && forall k :: 0 <= k < i ==> stream[k].Ok?
  }

  /** Item `i` is the first row, among those `take(max)` lets through, that does not decode. */
  ghost predicate FirstUndecodable(stream: RowStream, max: nat, i: int) {
    && 0 <= i < Cap(stream, max)
    && stream[i].Ok? && DecodeCells(stream[i].value, stream[i].value.columns).Err?
    && forall k :: 0 <= k < i ==> stream[k].Ok? && DecodeCells(stream[k].value, stream[k].value.columns).Ok?
  }

  /** Every fetched row has the same column names as the first, as the rows of one query do. */
  ghost predicate SameShape(stream: RowStream) {
    forall i, j :: 0 <= i < |stream| && 0 <= j < |stream| && stream[i].Ok? && stream[j].Ok? ==>
      stream[i].value.columns == stream[j].value.columns
  }

  /**
   * `DB::extract`: at most `max` rows; no rows gives no columns; otherwise the
   * columns of the first row, and one decoded cell per column in every row.
   */
  function Extract(stream: RowStream, max: nat): (r: Result<ResultSet, SqlExecutionError>)
    ensures r.Ok? ==> |r.value.rows| <= max
    ensures r.Ok? ==> |r.value.rows| == (if |stream| < max then |stream| else max)
    ensures r.Ok? ==> forall i :: 0 <= i < |r.value.rows| ==> stream[i].Ok?
    ensures r.Ok? && |r.value.rows| == 0 ==> r.value == ResultSet([], [])
    ensures r.Ok? && |r.value.rows| > 0 ==>
      && r.value.columns == stream[0].value.columns
      && forall i :: 0 <= i < |r.value.rows| ==> DecodeCells(stream[i].value, stream[i].value.columns) == Ok(r.value.rows[i])
    ensures r.Ok? && |r.value.rows| > 0 ==>
      forall i :: 0 <= i < |r.value.rows| ==> |r.value.rows[i]| == |stream[i].value.columns|
    ensures r.Ok? && SameShape(stream) ==> Rectangular(r.value)
    ensures r.Ok? <==> forall i :: 0 <= i < Cap(stream, max) ==>
      stream[i].Ok? && DecodeCells(stream[i].value, stream[i].value.columns).Ok?
    ensures forall i :: FirstStreamError(stream, max, i) ==> r == Err(Execute(stream[i].error))
    ensures (forall i :: 0 <= i < Cap(stream, max) ==> stream[i].Ok?) ==>
      forall i :: FirstUndecodable(stream, max, i) ==> r == Err(DecodeCells(stream[i].value, stream[i].value.columns).error)
  {
    FetchErrorIsFirst(stream, max);
    match FetchRows(stream, max)
    case Err(e) => Err(e)
    case Ok(rows) =>
      DecodeOkIff(stream, max);
      DecodeErrorIsFirst(stream, max);
      if |rows| == 0 then Ok(ResultSet([], []))
      else match DecodeRows(rows)
        case Err(e) => Err(e)
        case Ok(cells) => Ok(ResultSet(rows[0].columns, cells))
  }

  /** A driver error within the cap fails the fetch with the first such error. */
  lemma FetchErrorIsFirst(stream: RowStream, max: nat)
    ensures forall i :: FirstStreamError(stream, max, i) ==> FetchRows(stream, max) == Err(Execute(stream[i].error))
  {
    forall i | FirstStreamError(stream, max, i) ensures FetchRows(stream, max) == Err(Execute(stream[i].error)) {
      var j :| FirstStreamError(stream, max, j) && FetchRows(stream, max).error == Execute(stream[j].error);
      FirstStreamErrorUnique(stream, max, i, j);
    }
  }

  /** There is only one first driver error. */
  lemma FirstStreamErrorUnique(stream: RowStream, max: nat, i: int, j: int)
    requires FirstStreamError(stream, max, i) && FirstStreamError(stream, max, j)
    ensures i == j
  {
  }

  /** Once the fetch succeeds, decoding succeeds exactly when every fetched row decodes. */
  lemma DecodeOkIff(stream: RowStream, max: nat)
    requires FetchRows(stream, max).Ok?
    ensures DecodeRows(FetchRows(stream, max).value).Ok?
      <==> forall i :: 0 <= i < Cap(stream, max) ==> DecodeCells(stream[i].value, stream[i].value.columns).Ok?
  {
    var rows := FetchRows(stream, max).value;
    assert forall i :: 0 <= i < |rows| ==> rows[i] == stream[i].value;
  }

  /** Once the fetch succeeds, a decoding failure is the first failing row's. */
  lemma DecodeErrorIsFirst(stream: RowStream, max: nat)
    requires FetchRows(stream, max).Ok?
    ensures forall i :: FirstUndecodable(stream, max, i) ==>
      DecodeRows(FetchRows(stream, max).value) == Err(DecodeCells(stream[i].value, stream[i].value.columns).error)
  {
    var rows := FetchRows(stream, max).value;
    forall i | FirstUndecodable(stream, max, i)
      ensures DecodeRows(rows) == Err(DecodeCells(stream[i].value, stream[i].value.columns).error)
    {
      assert forall k :: 0 <= k <= i ==> rows[k] == stream[k].value;
      assert FirstFailingRow(rows, i);
      var j :| FirstFailingRow(rows, j) && DecodeRows(rows).error == DecodeCells(rows[j], rows[j].columns).error;
      FirstFailingRowUnique(rows, i, j);
    }
  }

  /** There is only one first failing row. */
  lemma FirstFailingRowUnique(rows: seq<PgRow>, i: int, j: int)
    requires FirstFailingRow(rows, i) && FirstFailingRow(rows, j)
    ensures i == j
  {
  }

  /** Items past the row cap are never looked at: an error there goes unnoticed. */
  lemma ExtractIgnoresItemsPastCap(stream: RowStream, max: nat)
    requires max <= |stream|
    ensures Extract(stream, max) == Extract(stream[..max], max)
  {
    FetchIgnoresItemsPastCap(stream, max);
  }

  /** `take(max)` drops the items past the cap before anything looks at them. */
  lemma {:induction false} FetchIgnoresItemsPastCap(stream: RowStream, max: nat)
    requires max <= |stream|
    ensures FetchRows(stream, max) == FetchRows(stream[..max], max)
    decreases max
  {
    if max > 0 {
      var t := stream[..max];
      assert t[0] == stream[0];
      assert t[1..] == stream[1..][..max - 1];
      FetchIgnoresItemsPastCap(stream[1..], max - 1);
      assert FetchRows(t[1..], max - 1) == FetchRows(stream[1..], max - 1);
    }
  }

  /** Behind a good row, the first error of the rest is the first error of all. */
  lemma FirstStreamErrorShift(stream: RowStream, max: nat, i: int)
    requires |stream| > 0 && max > 0 && stream[0].Ok?
    requires FirstStreamError(stream[1..], max - 1, i)
    ensures FirstStreamError(stream, max, i + 1) && stream[i + 1] == stream[1..][i]
  {
    assert forall k :: 1 <= k < i + 1 ==> stream[k] == stream[1..][k - 1];
  }

  // ------------------------------------------------------------- compare

  /** The outcome of executing a query: a result set with a row for every fetched row, or an error. */
  type Execution = Result<ResultSet, SqlExecutionError>

  ghost predicate WellShaped(e: Execution) {
    e.Ok? ==> Rectangular(e.value)
  }

  /** The column normalisation step of `DB::compare`. */
  function NormaliseColumns(rs: ResultSet, colNorm: ColumnNormalisation): (r: ResultSet)
    requires colNorm == SortColumnsByName ==> RowsCoverColumns(rs)
    ensures colNorm == NoColumnNormalization ==> r == rs
    ensures colNorm != NoColumnNormalization ==> |r.columns| == |rs.columns| && |r.rows| == |rs.rows|
    ensures Rectangular(rs) ==> Rectangular(r)
  {
    match colNorm
    case NumberColumnsByOrder => N.NumberColumns(rs)
    case SortColumnsByName => N.SortColumns(rs)
    case NoColumnNormalization => rs
  }

  /** The full normalisation of `DB::compare`: the columns first, then the rows. */
  function NormaliseSet(rs: ResultSet, rowNorm: RowNormalisation, colNorm: ColumnNormalisation): (r: ResultSet)
    requires colNorm == SortColumnsByName ==> RowsCoverColumns(rs)
    ensures rowNorm == NoRowNormalization ==> r == NormaliseColumns(rs, colNorm)
    ensures rowNorm == SortRows ==>
      && r.columns == NormaliseColumns(rs, colNorm).columns
      && multiset(r.rows) == multiset(NormaliseColumns(rs, colNorm).rows)
      && SortedBy(r.rows, RowLeq)
    ensures Rectangular(rs) ==> Rectangular(r)
  {
    var cols := NormaliseColumns(rs, colNorm);
    if rowNorm == SortRows then N.SortRows(cols) else cols
  }

  /** The result of `DB::compare`: both normalised sets and whether they are equal. */
  datatype Comparison = Comparison(a: ResultSet, b: ResultSet, equal: bool)

  /**
   * `DB::compare` on the outcomes of executing query a and then query b. An
   * error of a comes first; otherwise both sets are normalised alike and the
   * verdict is their structural equality.
   */
  function Compare(execA: Execution, execB: Execution, rowNorm: RowNormalisation, colNorm: ColumnNormalisation)
    : (r: Result<Comparison, SqlExecutionError>)
    requires WellShaped(execA) && WellShaped(execB)
    ensures execA.Err? ==> r == Err(execA.error)
    ensures execA.Ok? && execB.Err? ==> r == Err(execB.error)
    ensures execA.Ok? && execB.Ok? ==>
      && r.Ok?
      && r.value.a == NormaliseSet(execA.value, rowNorm, colNorm)
      && r.value.b == NormaliseSet(execB.value, rowNorm, colNorm)
      && (r.value.equal <==> r.value.a == r.value.b)
  {
    match execA
    case Err(e) => Err(e)
    case Ok(a) =>
      match execB
      case Err(e) => Err(e)
      case Ok(b) =>
        var na := NormaliseSet(a, rowNorm, colNorm);
        var nb := NormaliseSet(b, rowNorm, colNorm);
        Ok(Comparison(na, nb, na == nb))
  }

  /** Swapping the two queries swaps the returned sets and keeps the verdict. */
  lemma CompareSymmetric(execA: Execution, execB: Execution, rowNorm: RowNormalisation, colNorm: ColumnNormalisation)
    requires WellShaped(execA) && WellShaped(execB)
    requires execA.Ok? && execB.Ok?
    ensures Compare(execB, execA, rowNorm, colNorm).value.equal == Compare(execA, execB, rowNorm, colNorm).value.equal
    ensures Compare(execB, execA, rowNorm, colNorm).value.a == Compare(execA, execB, rowNorm, colNorm).value.b
  {
  }

  /** Under `NumberColumnsByOrder`, renaming columns (keeping their number) never changes the verdict. */
  lemma NumberedVerdictIgnoresNames(a: ResultSet, a': ResultSet, b: ResultSet, rowNorm: RowNormalisation)
    requires Rectangular(a) && Rectangular(a') && Rectangular(b)
    requires |a.columns| == |a'.columns| && a.rows == a'.rows
    ensures Compare(Ok(a), Ok(b), rowNorm, NumberColumnsByOrder).value.equal
        == Compare(Ok(a'), Ok(b), rowNorm, NumberColumnsByOrder).value.equal
  {
    N.NumberColumnsIgnoresNames(a, a');
  }

  /** With no normalisation the verdict is plain equality of the fetched sets. */
  lemma RawVerdictIsEquality(a: ResultSet, b: ResultSet)
    requires Rectangular(a) && Rectangular(b)
    ensures Compare(Ok(a), Ok(b), NoRowNormalization, NoColumnNormalization).value.equal <==> a == b
  {
  }

  /**
   * Under `SortRows` the verdict holds exactly when the column-normalised sets
   * have equal columns and hold the same rows, each as often, in any order.
   */
  lemma SortedVerdictIsBagEquality(a: ResultSet, b: ResultSet, colNorm: ColumnNormalisation)
    requires Rectangular(a) && Rectangular(b)
    ensures var ca := NormaliseColumns(a, colNorm);
      var cb := NormaliseColumns(b, colNorm);
      var verdict := Compare(Ok(a), Ok(b), SortRows, colNorm).value.equal;
      verdict <==> ca.columns == cb.columns && multiset(ca.rows) == multiset(cb.rows)
  {
    var ca := NormaliseColumns(a, colNorm);
    var cb := NormaliseColumns(b, colNorm);
    N.SortRowsEqualIff(ca, cb);
  }

  /** Normalising a normalised set changes nothing, so re-comparing the returned sets agrees. */
  lemma NormaliseIdempotent(rs: ResultSet, rowNorm: RowNormalisation, colNorm: ColumnNormalisation)
    requires Rectangular(rs)
    ensures NormaliseSet(NormaliseSet(rs, rowNorm, colNorm), rowNorm, colNorm) == NormaliseSet(rs, rowNorm, colNorm)
  {
    var once := NormaliseSet(rs, rowNorm, colNorm);
    var cols := NormaliseColumns(rs, colNorm);
    match colNorm
    case NoColumnNormalization =>
      if rowNorm == SortRows {
        N.SortRowsIdempotent(cols);
      }
    case NumberColumnsByOrder =>
      assert NormaliseColumns(once, colNorm) == once;
      if rowNorm == SortRows {
        N.SortRowsIdempotent(cols);
      }
    case SortColumnsByName =>
      N.SortColumnsKeepsSorted(once);
      if rowNorm == SortRows {
        N.SortRowsIdempotent(cols);
      }
  }
}

=== FILE: models.dfy ===
/**
 * The shared result-set data model: SQL cell values, result sets, per-query
 * outcomes, and the orders that `#[derive(PartialEq, PartialOrd)]` gives them.
 */
module Models {
  import opened Wrappers
  import opened Order

  /**
   * A non-NaN `f64`. Finite values are reals, so `-0.0` and `0.0` are one
   * value, just as `f64`'s `==` and `partial_cmp` treat them.
   */
  datatype F64 = NegInfinity | Finite(value: real) | PosInfinity

  /** A decoded SQL cell. */
  datatype SqlValue =
    | Bool(b: bool)
    | Int(i: int)
    | Float(f: F64)
    | Text(s: string)

  type Row = seq<SqlValue>

  /** A query result: column names and the rows under them. */
  datatype ResultSet = ResultSet(columns: seq<string>, rows: seq<Row>)

  /** The outcome of running one query, as the proxy forwards it (the source's `Ok` and `Error` variants). */
  datatype SqlResult = SqlOk(resultSet: ResultSet) | SqlError(message: string)

  /**
   * Every float cell is finite. `serde_json` writes an infinite `f64` as
   * `null`, and none of `SqlValue`'s untagged variants reads `null` back, so
   * only such result sets survive a trip through JSON.
   */
  predicate FiniteFloats(rs: ResultSet) {
    forall i, j :: 0 <= i < |rs.rows| && 0 <= j < |rs.rows[i]| ==> !rs.rows[i][j].Float? || rs.rows[i][j].f.Finite?
  }

  /** One optional outcome per query; `None` when the query could not be run at all. */
  type Results = seq<Option<SqlResult>>

  /** Every row has exactly one cell per column. */
  ghost predicate Rectangular(rs: ResultSet) {
    forall i :: 0 <= i < |rs.rows| ==> |rs.rows[i]| == |rs.columns|
  }

  /** Every row has at least one cell per column. */
  ghost predicate RowsCoverColumns(rs: ResultSet) {
    forall i :: 0 <= i < |rs.rows| ==> |rs.rows[i]| >= |rs.columns|
  }

  // ---------------------------------------------------------------- orders

  predicate F64Lt(x: F64, y: F64) {
    match (x, y)
    case (NegInfinity, NegInfinity) => false
    case (NegInfinity, _) => true
    case (Finite(a), Finite(b)) => a < b
    case (Finite(_), PosInfinity) => true
    case (_, _) => false
  }

  predicate CharLt(a: char, b: char) {
    a < b
  }

  /** `String`'s order: lexicographic by character, which is also UTF-8 byte order. */
  predicate StrLeq(x: string, y: string) {
    LexLeq(x, y, CharLt)
  }

  predicate StrLt(x: string, y: string) {
    StrLeq(x, y) && x != y
  }

  /** The position of a variant in the declaration of `SqlValue`, which the derived order compares first. */
  function VariantIndex(v: SqlValue): nat {
    match v
    case Bool(_) => 0
    case Int(_) => 1
    case Float(_) => 2
    case Text(_) => 3
  }

  /** The derived `<` on `SqlValue`: declaration order of the variants, then the payloads. */
  predicate ValueLt(a: SqlValue, b: SqlValue) {
    if VariantIndex(a) != VariantIndex(b) then VariantIndex(a) < VariantIndex(b)
    else match (a, b)
      case (Bool(x), Bool(y)) => !x && y
      case (Int(x), Int(y)) => x < y
      case (Float(x), Float(y)) => F64Lt(x, y)
      case (Text(x), Text(y)) => StrLt(x, y)
      case (_, _) => false
  }

  /** The derived `<=` on rows (`Vec<SqlValue>`): lexicographic over `ValueLt`. */
  predicate RowLeq(a: Row, b: Row) {
    LexLeq(a, b, ValueLt)
  }

  // ------------------------------------------------------ facts about them

  /** Values of different variants are ordered Bool < Int < Float < Text, whatever their payloads. */
  lemma VariantOrder(b: bool, i: int, f: F64, s: string)
    ensures ValueLt(Bool(b), Int(i)) && ValueLt(Int(i), Float(f)) && ValueLt(Float(f), Text(s))
    ensures ValueLt(Bool(b), Text(s)) && !ValueLt(Text(s), Bool(b))
  {
  }

  /** Values of one variant compare by their payloads alone. */
  lemma SameVariantByPayload(a: SqlValue, b: SqlValue)
    requires VariantIndex(a) == VariantIndex(b)
    ensures a.Bool? ==> (ValueLt(a, b) <==> !a.b && b.b)
    ensures a.Int? ==> (ValueLt(a, b) <==> a.i < b.i)
    ensures a.Float? ==> (ValueLt(a, b) <==> F64Lt(a.f, b.f))
    ensures a.Text? ==> (ValueLt(a, b) <==> StrLeq(a.s, b.s) && a.s != b.s)
  {
  }

  lemma CharLtIsStrict()
    ensures StrictTotalOrder(CharLt)
  {
  }

  lemma F64LtIsStrict()
    ensures StrictTotalOrder(F64Lt)
  {
  }

  lemma StrLtTransitive(x: string, y: string, z: string)
    requires StrLt(x, y) && StrLt(y, z)
    ensures StrLt(x, z)
  {
    CharLtIsStrict();
    LexLeqTransitive(x, y, z, CharLt);
    if x == z {
      LexLeqAntisymmetric(x, y, CharLt);
    }
  }

  /** The derived `<` on values is a strict total order (floats being non-NaN). */
  lemma {:induction false} ValueLtIsStrict()
    ensures StrictTotalOrder(ValueLt)
  {
    CharLtIsStrict();
    F64LtIsStrict();
    forall x: SqlValue, y: SqlValue, z: SqlValue | ValueLt(x, y) && ValueLt(y, z)
      ensures ValueLt(x, z)
    {
      if x.Text? && y.Text? && z.Text? {
        StrLtTransitive(x.s, y.s, z.s);
      }
    }
    forall x: SqlValue, y: SqlValue | x != y ensures ValueLt(x, y) || ValueLt(y, x) {
      if x.Text? && y.Text? {
        LexLeqTotal(x.s, y.s, CharLt);
      }
    }
  }

  /** The derived order on rows is a total order. */
  lemma RowLeqIsTotal()
    ensures TotalOrder(RowLeq)
  {
    ValueLtIsStrict();
    forall a: Row, b: Row ensures RowLeq(a, b) || RowLeq(b, a) {
      LexLeqTotal(a, b, ValueLt);
    }
    forall a: Row, b: Row | RowLeq(a, b) && RowLeq(b, a) ensures a == b {
      LexLeqAntisymmetric(a, b, ValueLt);
    }
    forall a: Row, b: Row, c: Row | RowLeq(a, b) && RowLeq(b, c) ensures RowLeq(a, c) {
      LexLeqTransitive(a, b, c, ValueLt);
    }
  }

  /** The order on strings is a total order. */
  lemma StrLeqIsTotal()
    ensures TotalOrder(StrLeq)
  {
    CharLtIsStrict();
    forall a: string, b: string ensures StrLeq(a, b) || StrLeq(b, a) {
      LexLeqTotal(a, b, CharLt);
    }
    forall a: string, b: string | StrLeq(a, b) && StrLeq(b, a) ensures a == b {
      LexLeqAntisymmetric(a, b, CharLt);
    }
    forall a: string, b: string, c: string | StrLeq(a, b) && StrLeq(b, c) ensures StrLeq(a, c) {
      LexLeqTransitive(a, b, c, CharLt);
    }
  }

  /** A row is below each of its extensions, strictly below each proper one. */
  lemma {:induction false} RowPrefixIsSmaller(a: Row, rest: Row)
    ensures RowLeq(a, a + rest)
    ensures |rest| > 0 ==> !RowLeq(a + rest, a)
  {
    PrefixIsSmaller(a, rest, ValueLt);
  }

  /** Rows that first differ at position `k` are ordered as their cells at `k` are. */
  lemma {:induction false} RowFirstDifference(a: Row, b: Row, k: nat)
    requires k < |a| && k < |b|
    requires a[..k] == b[..k] && a[k] != b[k]
    ensures RowLeq(a, b) <==> ValueLt(a[k], b[k])
    decreases k
  {
    if k > 0 {
      assert a[0] == a[..k][0] == b[..k][0] == b[0];
      assert a[1..][..k - 1] == a[..k][1..] == b[..k][1..] == b[1..][..k - 1];
      RowFirstDifference(a[1..], b[1..], k - 1);
    }
  }
}

=== FILE: normalise.dfy ===
/**
 * The three result-set normalisations of `ResultSetExtension`: sort the
 * columns by name (moving every row's cells along), renumber the columns,
 * and sort the rows.
 */
module Normalise {
  import opened Models
  import opened Order
  import opened Sorting
  import opened Text

  /** One item of `columns.iter().enumerate()`: a column's original position and its name. */
  datatype Entry = Entry(index: nat, name: string)

  function Enumerate(columns: seq<string>): (r: seq<Entry>)
    ensures |r| == |columns|
    ensures forall i :: 0 <= i < |r| ==> r[i] == Entry(i, columns[i])
  {
    seq(|columns|, i requires 0 <= i < |columns| => Entry(i, columns[i]))
  }

  /**
   * Entries by name, ties broken by original position. Sorting the enumerated
   * columns with this total order gives exactly what the source's stable
   * `sort_by` on the names gives, since `enumerate()` lists positions in
   * increasing order.
   */
  predicate EntryLeq(x: Entry, y: Entry) {
    StrLt(x.name, y.name) || (x.name == y.name && x.index <= y.index)
  }

  lemma EntryLeqIsTotal()
    ensures TotalOrder(EntryLeq)
  {
    StrLeqIsTotal();
  }

  /**
   * The original position of the column that ends up at each position after
   * the stable sort by name: a permutation of `0..n`, listing the columns in
   * ascending name order, with equal names kept in their original order.
   */
  function ColumnOrder(columns: seq<string>): (perm: seq<nat>)
    ensures |perm| == |columns|
    ensures forall k :: 0 <= k < |perm| ==> perm[k] < |columns|
    ensures forall i :: 0 <= i < |columns| ==> i in perm
    ensures forall k, l :: 0 <= k < l < |perm| ==> perm[k] != perm[l]
    ensures forall k, l :: 0 <= k < l < |perm| ==> StrLeq(columns[perm[k]], columns[perm[l]])
    ensures forall k, l :: 0 <= k < l < |perm| && columns[perm[k]] == columns[perm[l]] ==> perm[k] < perm[l]
  {
    var sorted := Sort(Enumerate(columns), EntryLeq);
    var perm := seq(|sorted|, k requires 0 <= k < |sorted| => sorted[k].index);
    ColumnOrderIsPermutation(columns, sorted, perm);
    ColumnOrderIsStableSort(columns, sorted, perm);
    perm
  }

  lemma ColumnOrderIsPermutation(columns: seq<string>, sorted: seq<Entry>, perm: seq<nat>)
    requires sorted == Sort(Enumerate(columns), EntryLeq)
    requires |perm| == |sorted| && forall k :: 0 <= k < |sorted| ==> perm[k] == sorted[k].index
    ensures forall k :: 0 <= k < |perm| ==> perm[k] < |columns|
    ensures forall i :: 0 <= i < |columns| ==> i in perm
    ensures forall k, l :: 0 <= k < l < |perm| ==> perm[k] != perm[l]
  {
    ColumnOrderFacts(columns, Enumerate(columns), sorted);
    forall i | 0 <= i < |columns| ensures i in perm {
      var k :| 0 <= k < |sorted| && sorted[k] == Entry(i, columns[i]);
      assert perm[k] == i;
    }
    forall k, l | 0 <= k < l < |perm| ensures perm[k] != perm[l] {
      assert sorted[k] != sorted[l];
    }
  }

  lemma ColumnOrderIsStableSort(columns: seq<string>, sorted: seq<Entry>, perm: seq<nat>)
    requires sorted == Sort(Enumerate(columns), EntryLeq)
    requires |perm| == |sorted| && forall k :: 0 <= k < |sorted| ==> perm[k] == sorted[k].index
    ensures forall k :: 0 <= k < |perm| ==> perm[k] < |columns|
    ensures forall k, l :: 0 <= k < l < |perm| ==> StrLeq(columns[perm[k]], columns[perm[l]])
    ensures forall k, l :: 0 <= k < l < |perm| && columns[perm[k]] == columns[perm[l]] ==> perm[k] < perm[l]
  {
    ColumnOrderFacts(columns, Enumerate(columns), sorted);
    forall k, l | 0 <= k < l < |perm| ensures StrLeq(columns[perm[k]], columns[perm[l]]) {
      assert EntryLeq(sorted[k], sorted[l]);
      assert sorted[k].name == columns[perm[k]] && sorted[l].name == columns[perm[l]];
      LexLeqReflexive(sorted[k].name, CharLt);
    }
    forall k, l | 0 <= k < l < |perm| && columns[perm[k]] == columns[perm[l]] ensures perm[k] < perm[l] {
      assert EntryLeq(sorted[k], sorted[l]);
      assert sorted[k].name == columns[perm[k]] && sorted[l].name == columns[perm[l]];
      assert sorted[k] != sorted[l];
    }
  }

  lemma ColumnOrderFacts(columns: seq<string>, entries: seq<Entry>, sorted: seq<Entry>)
    requires entries == Enumerate(columns) && sorted == Sort(entries, EntryLeq)
    ensures forall k :: 0 <= k < |sorted| ==> sorted[k].index < |columns| && sorted[k].name == columns[sorted[k].index]
    ensures forall i :: 0 <= i < |columns| ==> Entry(i, columns[i]) in sorted
    ensures forall k, l :: 0 <= k < l < |sorted| ==> sorted[k] != sorted[l]
    ensures forall k, l :: 0 <= k < l < |sorted| ==> EntryLeq(sorted[k], sorted[l])
  {
    EntryLeqIsTotal();
    SortSorted(entries, EntryLeq);
    SortDistinct(entries, EntryLeq);
    forall k | 0 <= k < |sorted|
      ensures sorted[k].index < |columns| && sorted[k].name == columns[sorted[k].index]
    {
      assert sorted[k] in entries;
    }
    forall i | 0 <= i < |columns| ensures Entry(i, columns[i]) in sorted {
      assert entries[i] == Entry(i, columns[i]);
    }
  }

  /**
   * One row after `sort_columns`: cell `k` becomes the old cell at `perm[k]`
   * for every column position `k`; cells beyond the columns stay in place.
   */
  function Rearrange(row: Row, perm: seq<nat>): (r: Row)
    requires |perm| <= |row|
    requires forall k :: 0 <= k < |perm| ==> perm[k] < |row|
    ensures |r| == |row|
  {
    seq(|row|, k requires 0 <= k < |row| => if k < |perm| then row[perm[k]] else row[k])
  }

  /** `ResultSet::sort_columns`. Rows shorter than the column list would make the source panic. */
  function SortColumns(rs: ResultSet): (r: ResultSet)
    requires RowsCoverColumns(rs)
    ensures var perm := ColumnOrder(rs.columns);
      && |r.columns| == |rs.columns|
      && (forall k :: 0 <= k < |perm| ==> r.columns[k] == rs.columns[perm[k]])
      && |r.rows| == |rs.rows|
      && (forall i :: 0 <= i < |r.rows| ==> |r.rows[i]| == |rs.rows[i]|)
      && (forall i, k :: 0 <= i < |r.rows| && 0 <= k < |perm| ==> r.rows[i][k] == rs.rows[i][perm[k]])
      && (forall i, k :: 0 <= i < |r.rows| && |perm| <= k < |r.rows[i]| ==> r.rows[i][k] == rs.rows[i][k])
    ensures forall k, l :: 0 <= k < l < |r.columns| ==> StrLeq(r.columns[k], r.columns[l])
    ensures RowsCoverColumns(r)
    ensures Rectangular(rs) ==> Rectangular(r)
  {
    var perm := ColumnOrder(rs.columns);
    ResultSet(PermuteColumns(rs.columns, perm), RearrangeAll(rs.rows, perm))
  }

  /** The column names in the order `perm` lists them. */
  function PermuteColumns(columns: seq<string>, perm: seq<nat>): (r: seq<string>)
    requires forall k :: 0 <= k < |perm| ==> perm[k] < |columns|
    ensures |r| == |perm|
    ensures forall k :: 0 <= k < |perm| ==> r[k] == columns[perm[k]]
  {
    seq(|perm|, k requires 0 <= k < |perm| => columns[perm[k]])
  }

  /** Every row rearranged by `perm`. */
  function RearrangeAll(rows: seq<Row>, perm: seq<nat>): (r: seq<Row>)
    requires forall i :: 0 <= i < |rows| ==> |perm| <= |rows[i]|
    requires forall k :: 0 <= k < |perm| ==> perm[k] < |perm|
    ensures |r| == |rows|
    ensures forall i :: 0 <= i < |r| ==> |r[i]| == |rows[i]|
    ensures forall i, k :: 0 <= i < |r| && 0 <= k < |perm| ==> r[i][k] == rows[i][perm[k]]
    ensures forall i, k :: 0 <= i < |r| && |perm| <= k < |r[i]| ==> r[i][k] == rows[i][k]
  {
    seq(|rows|, i requires 0 <= i < |rows| => Rearrange(rows[i], perm))
  }

  /** `ResultSet::number_columns`: the columns become "0", "1", ..., "n-1"; rows are untouched. */
  function NumberColumns(rs: ResultSet): (r: ResultSet)
    ensures |r.columns| == |rs.columns|
    ensures forall i :: 0 <= i < |r.columns| ==> r.columns[i] == DecimalString(i)
    ensures r.rows == rs.rows
    ensures forall i, j :: 0 <= i < j < |r.columns| ==> r.columns[i] != r.columns[j]
  {
    var r := ResultSet(seq(|rs.columns|, i requires 0 <= i < |rs.columns| => DecimalString(i)), rs.rows);
    assert forall i, j :: 0 <= i < j < |r.columns| ==> r.columns[i] != r.columns[j] by {
      forall i, j | 0 <= i < j < |r.columns| ensures r.columns[i] != r.columns[j] {
        DecimalStringInjective(i, j);
      }
    }
    r
  }

  /** `ResultSet::sort_rows`: the rows rearranged into non-decreasing derived order. */
  function SortRows(rs: ResultSet): (r: ResultSet)
    ensures r.columns == rs.columns
    ensures multiset(r.rows) == multiset(rs.rows)
    ensures SortedBy(r.rows, RowLeq)
    ensures RowsCoverColumns(rs) ==> RowsCoverColumns(r)
    ensures Rectangular(rs) ==> Rectangular(r)
  {
    RowLeqIsTotal();
    SortSorted(rs.rows, RowLeq);
    var r := ResultSet(rs.columns, Sort(rs.rows, RowLeq));
    assert forall i :: 0 <= i < |r.rows| ==> r.rows[i] in rs.rows;
    r
  }

  // ------------------------------------------------------------- properties

  /** Whatever the column names, renumbering gives the same result for the same rows and column count. */
  lemma NumberColumnsIgnoresNames(a: ResultSet, b: ResultSet)
    requires |a.columns| == |b.columns| && a.rows == b.rows
    ensures NumberColumns(a) == NumberColumns(b)
  {
  }

  lemma NumberColumnsIdempotent(rs: ResultSet)
    ensures NumberColumns(NumberColumns(rs)) == NumberColumns(rs)
  {
  }

  /** The sorted rows are the only sorted arrangement of the rows. */
  lemma SortRowsIsTheSortedPermutation(rs: ResultSet, rows: seq<Row>)
    requires multiset(rows) == multiset(rs.rows) && SortedBy(rows, RowLeq)
    ensures SortRows(rs).rows == rows
  {
    RowLeqIsTotal();
    SortedPermutationUnique(SortRows(rs).rows, rows, RowLeq);
  }

  /** Two sets of rows sort to the same sequence exactly when they hold the same rows. */
  lemma SortRowsEqualIff(a: ResultSet, b: ResultSet)
    ensures SortRows(a).rows == SortRows(b).rows <==> multiset(a.rows) == multiset(b.rows)
  {
    if multiset(a.rows) == multiset(b.rows) {
      SortRowsIsTheSortedPermutation(a, SortRows(b).rows);
    }
  }

  lemma SortRowsIdempotent(rs: ResultSet)
    ensures SortRows(SortRows(rs)) == SortRows(rs)
  {
    SortOfSorted(SortRows(rs).rows, RowLeq);
  }

  /** Once the columns are in name order, the column order is the identity. */
  lemma ColumnOrderOfSorted(columns: seq<string>)
    requires forall k, l :: 0 <= k < l < |columns| ==> StrLeq(columns[k], columns[l])
    ensures forall k :: 0 <= k < |columns| ==> ColumnOrder(columns)[k] == k
  {
    var entries := Enumerate(columns);
    assert SortedBy(entries, EntryLeq) by {
      forall k, l | 0 <= k < l < |entries| ensures EntryLeq(entries[k], entries[l]) {
        assert StrLeq(columns[k], columns[l]);
      }
    }
    SortOfSorted(entries, EntryLeq);
  }

  /** `sort_columns` leaves a set whose columns are already in name order as it is. */
  lemma SortColumnsKeepsSorted(rs: ResultSet)
    requires RowsCoverColumns(rs)
    requires forall k, l :: 0 <= k < l < |rs.columns| ==> StrLeq(rs.columns[k], rs.columns[l])
    ensures SortColumns(rs) == rs
  {
    ColumnOrderOfSorted(rs.columns);
    var r := SortColumns(rs);
    assert r.columns == rs.columns;
    forall i | 0 <= i < |rs.rows| ensures r.rows[i] == rs.rows[i] {
    }
  }

  lemma SortColumnsIdempotent(rs: ResultSet)
    requires RowsCoverColumns(rs)
    ensures SortColumns(SortColumns(rs)) == SortColumns(rs)
  {
    SortColumnsKeepsSorted(SortColumns(rs));
  }
}

=== FILE: order.dfy ===
/**
 * Orders as Rust derives them: a strict order on elements lifts to the
 * lexicographic order on sequences that `Vec<T>: PartialOrd` and `String: Ord` use.
 */
module Order {

  /** `lt` is irreflexive, transitive and relates any two distinct elements. */
  ghost predicate StrictTotalOrder<T(!new)>(lt: (T, T) -> bool) {
    && (forall x :: !lt(x, x))
    && (forall x, y, z :: lt(x, y) && lt(y, z) ==> lt(x, z))
    && (forall x, y :: x != y ==> lt(x, y) || lt(y, x))
  }

  /** `leq` is total, antisymmetric and transitive. */
  ghost predicate TotalOrder<T(!new)>(leq: (T, T) -> bool) {
    && (forall x, y :: leq(x, y) || leq(y, x))
    && (forall x, y :: leq(x, y) && leq(y, x) ==> x == y)
    && (forall x, y, z :: leq(x, y) && leq(y, z) ==> leq(x, z))
  }

  /**
   * Lexicographic `a <= b`: the first differing position decides by `lt`;
   * when one sequence runs out first, it is the smaller one.
   */
  predicate LexLeq<T(==)>(a: seq<T>, b: seq<T>, lt: (T, T) -> bool)
    decreases |a|
  {
    |a| == 0 || (|b| > 0 && if a[0] == b[0] then LexLeq(a[1..], b[1..], lt) else lt(a[0], b[0]))
  }

  lemma {:induction false} LexLeqReflexive<T>(a: seq<T>, lt: (T, T) -> bool)
    ensures LexLeq(a, a, lt)
    decreases |a|
  {
    if |a| > 0 {
      LexLeqReflexive(a[1..], lt);
    }
  }

  lemma {:induction false} LexLeqAntisymmetric<T(!new)>(a: seq<T>, b: seq<T>, lt: (T, T) -> bool)
    requires StrictTotalOrder(lt)
    requires LexLeq(a, b, lt) && LexLeq(b, a, lt)
    ensures a == b
    decreases |a|
  {
    if |a| > 0 {
      if a[0] == b[0] {
        LexLeqAntisymmetric(a[1..], b[1..], lt);
        assert a == [a[0]] + a[1..] && b == [b[0]] + b[1..];
      }
    }
  }

  lemma {:induction false} LexLeqTransitive<T(!new)>(a: seq<T>, b: seq<T>, c: seq<T>, lt: (T, T) -> bool)
    requires StrictTotalOrder(lt)
    requires LexLeq(a, b, lt) && LexLeq(b, c, lt)
    ensures LexLeq(a, c, lt)
    decreases |a|
  {
    if |a| > 0 {
      if a[0] == b[0] && b[0] == c[0] {
        LexLeqTransitive(a[1..], b[1..], c[1..], lt);
      }
    }
  }

  lemma {:induction false} LexLeqTotal<T(!new)>(a: seq<T>, b: seq<T>, lt: (T, T) -> bool)
    requires StrictTotalOrder(lt)
    ensures LexLeq(a, b, lt) || LexLeq(b, a, lt)
    decreases |a|
  {
    if |a| > 0 && |b| > 0 && a[0] == b[0] {
      LexLeqTotal(a[1..], b[1..], lt);
    }
  }

  /** A sequence is below every extension of it, and strictly below every proper one. */
  lemma {:induction false} PrefixIsSmaller<T(!new)>(a: seq<T>, c: seq<T>, lt: (T, T) -> bool)
    ensures LexLeq(a, a + c, lt)
    ensures |c| > 0 ==> !LexLeq(a + c, a, lt)
    decreases |a|
  {
    if |a| > 0 {
      assert (a + c)[1..] == a[1..] + c;
      PrefixIsSmaller(a[1..], c, lt);
    }
  }
}

=== FILE: prompt.dfy ===
/**
 * The feedback service's prompt builder (`generate_prompt`): a fixed
 * template filled with the request's context, the reference solutions
 * rendered by count, and one submission, with surrounding whitespace
 * stripped as Python's `str.strip` does.
 */
module Prompt {
  import opened Text

  // ------------------------------------------------------------ strip

  /** The code points Python's `str.isspace` accepts. */
  const SpaceCodePoints: set<int> := {
    0x09, 0x0A, 0x0B, 0x0C, 0x0D, 0x1C, 0x1D, 0x1E, 0x1F, 0x20, 0x85, 0xA0, 0x1680,
    0x2000, 0x2001, 0x2002, 0x2003, 0x2004, 0x2005, 0x2006, 0x2007, 0x2008, 0x2009, 0x200A,
    0x2028, 0x2029, 0x202F, 0x205F, 0x3000 }

  /** Python's `str.isspace` on one character. */
  predicate IsSpace(c: char) {
    c as int in SpaceCodePoints
  }

  predicate AllSpace(s: string) {
    forall i :: 0 <= i < |s| ==> IsSpace(s[i])
  }

  /** `s.lstrip()`: the suffix that remains once the leading whitespace is gone. */
  function LStrip(s: string): (r: string)
    ensures |r| <= |s| && r == s[|s| - |r|..]
    ensures AllSpace(s[..|s| - |r|])
    ensures |r| > 0 ==> !IsSpace(r[0])
  {
    if |s| > 0 && IsSpace(s[0]) then LStrip(s[1..]) else s
  }

  /** `s.rstrip()`: the prefix that remains once the trailing whitespace is gone. */
  function RStrip(s: string): (r: string)
    ensures |r| <= |s| && r == s[..|r|]
    ensures AllSpace(s[|r|..])
    ensures |r| > 0 ==> !IsSpace(r[|r| - 1])
  {
    if |s| > 0 && IsSpace(s[|s| - 1]) then RStrip(s[..|s| - 1]) else s
  }

  /** `s.strip()`: the middle of `s` once the whitespace at both ends is gone. */
  function Strip(s: string): (r: string)
    ensures |r| <= |s|
    ensures |r| > 0 ==> !IsSpace(r[0]) && !IsSpace(r[|r| - 1])
    ensures exists i :: StrippedAt(s, r, i)
  {
    var t := RStrip(s);
    var r := LStrip(t);
    assert StrippedAt(s, r, |t| - |r|) by {
      assert s[..|t| - |r|] == t[..|t| - |r|];
      assert s[|t| - |r|..|t|] == t[|t| - |r|..];
    }
    r
  }

  /** `r` is `s[i..]` cut to `r`'s length, with only whitespace before and after it. */
  predicate StrippedAt(s: string, r: string, i: int) {
    && 0 <= i && i + |r| <= |s|
    && r == s[i..i + |r|]
    && AllSpace(s[..i]) && AllSpace(s[i + |r|..])
  }

  /** Stripping the right end first or the left end first gives the same string. */
  lemma StripEitherOrder(s: string)
    ensures Strip(s) == RStrip(LStrip(s))
  {
    var r := Strip(s);
    var i :| StrippedAt(s, r, i);
    if |r| == 0 {
      BlankStrip(s, i);
    } else {
      VisibleStrip(s, r, i);
    }
  }

  /** A string that strips to nothing is all whitespace, and so `lstrip` empties it. */
  lemma BlankStrip(s: string, i: int)
    requires StrippedAt(s, "", i)
    ensures RStrip(LStrip(s)) == ""
  {
    assert s == s[..i] + s[i..];
    assert AllSpace(s[..|s| - 0]) by {
      forall k | 0 <= k < |s| ensures IsSpace(s[k]) {
        if k < i { assert s[k] == s[..i][k]; } else { assert s[k] == s[i..][k - i]; }
      }
    }
    LStripUnique(s, "");
  }

  /** Around a visible middle, `lstrip` stops where the middle starts and `rstrip` then cuts it off. */
  lemma VisibleStrip(s: string, r: string, i: int)
    requires StrippedAt(s, r, i) && |r| > 0
    requires !IsSpace(r[0]) && !IsSpace(r[|r| - 1])
    ensures RStrip(LStrip(s)) == r
  {
    var l := s[i..];
    assert s[|s| - |l|..] == l;
    assert l[0] == r[0];
    LStripUnique(s, l);
    assert l[..|r|] == r;
    assert l[|r|..] == s[i + |r|..];
    RStripUnique(l, r);
  }

  /** The three properties of `RStrip`'s contract pin its result down. */
  lemma {:induction false} RStripUnique(s: string, r: string)
    requires |r| <= |s| && r == s[..|r|] && AllSpace(s[|r|..])
    requires |r| > 0 ==> !IsSpace(r[|r| - 1])
    ensures RStrip(s) == r
    decreases |s|
  {
    if |r| < |s| {
      assert IsSpace(s[|s| - 1]) by { assert s[|s| - 1] == s[|r|..][|s| - 1 - |r|]; }
      var t := s[..|s| - 1];
      assert t[|r|..] == s[|r|..][..|s| - 1 - |r|];
      RStripUnique(t, r);
    }
  }

  /** Likewise for `LStrip`. */
  lemma {:induction false} LStripUnique(s: string, r: string)
    requires |r| <= |s| && r == s[|s| - |r|..] && AllSpace(s[..|s| - |r|])
    requires |r| > 0 ==> !IsSpace(r[0])
    ensures LStrip(s) == r
    decreases |s|
  {
    if |r| < |s| {
      assert IsSpace(s[0]) by { assert s[0] == s[..|s| - |r|][0]; }
      var t := s[1..];
      assert t[..|t| - |r|] == s[..|s| - |r|][1..];
      LStripUnique(t, r);
    }
  }

  /** Trailing whitespace is stripped from the last part alone while that part has something left. */
  lemma RStripAppend(a: string, b: string)
    requires RStrip(b) != ""
    ensures RStrip(a + b) == a + RStrip(b)
  {
    var rb := RStrip(b);
    var r := a + rb;
    assert (a + b)[..|r|] == r;
    assert (a + b)[|r|..] == b[|rb|..];
    RStripUnique(a + b, r);
  }

  /** A string ending in whitespace strips like its prefix without that whitespace. */
  lemma RStripDropSpace(a: string, b: string)
    requires AllSpace(b)
    ensures RStrip(a + b) == RStrip(a)
  {
    var r := RStrip(a);
    assert (a + b)[..|r|] == a[..|r|];
    assert (a + b)[|r|..] == a[|r|..] + b;
    RStripUnique(a + b, r);
  }

  /** Leading whitespace before a non-blank start is all `lstrip` removes. */
  lemma LStripSpacePrefix(a: string, b: string)
    requires AllSpace(a) && |b| > 0 && !IsSpace(b[0])
    ensures LStrip(a + b) == b
  {
    assert (a + b)[|a + b| - |b|..] == b;
    assert (a + b)[..|a + b| - |b|] == a;
    LStripUnique(a + b, b);
  }

  // ----------------------------------------------------------- wording

  /** "reference solution" for exactly one solution, "reference solutions" for any other count. */
  function SolutionText(n: nat): (t: string)
    ensures t == "reference solution" <==> n == 1
    ensures n != 1 ==> t == "reference solutions"
    ensures |t| > 0 && !IsSpace(t[|t| - 1])
  {
    if n == 1 then "reference solution" else "reference solutions"
  }

  /** The heading above the solutions block, singular for exactly one solution. */
  function DisplayPrefix(n: nat): (t: string)
    ensures t == "Reference Solution" <==> n == 1
    ensures n != 1 ==> t == "Reference Solutions"
  {
    if n == 1 then "Reference Solution" else "Reference Solutions"
  }

  /** The list item for the solution at 0-based position `i`: its 1-based number, a dot, a space, the text. */
  function Item(i: nat, solution: string): (line: string)
    ensures |line| == |DecimalString(i + 1)| + 2 + |solution|
    ensures IsPrefix(DecimalString(i + 1) + ". ", line)
    ensures line[|line| - |solution|..] == solution
  {
    DecimalString(i + 1) + ". " + solution
  }

  /** The numbered items, one per solution, in input order. */
  function Items(solutions: seq<string>): (items: seq<string>)
    ensures |items| == |solutions|
    ensures forall i :: 0 <= i < |items| ==> items[i] == Item(i, solutions[i])
  {
    seq(|solutions|, i requires 0 <= i < |solutions| => Item(i, solutions[i]))
  }

  /** The solutions block: a numbered list for several, the solution itself for one, a placeholder for none. */
  function SolutionsList(solutions: seq<string>): (block: string)
    ensures |solutions| == 0 ==> block == "None provided"
    ensures |solutions| == 1 ==> block == solutions[0]
    ensures |solutions| > 1 ==> IsPrefix(Item(0, solutions[0]) + "\n", block)
  {
    if |solutions| > 1 then
      var items := Items(solutions);
      assert items == [items[0]] + items[1..];
      Join(items, "\n")
    else if |solutions| == 1 then solutions[0]
    else "None provided"
  }

  /** One more solution on a list of two or more adds one line, numbered next, at the end. */
  lemma SolutionsListSnoc(solutions: seq<string>, s: string)
    requires |solutions| >= 2
    ensures SolutionsList(solutions + [s]) == SolutionsList(solutions) + "\n" + Item(|solutions|, s)
  {
    assert Items(solutions + [s]) == Items(solutions) + [Item(|solutions|, s)];
    JoinSnoc(Items(solutions), Item(|solutions|, s), "\n");
  }

  /** The second solution turns the block from the bare solution into a two-item list. */
  lemma SolutionsListSecond(s0: string, s1: string)
    ensures SolutionsList([s0]) == s0
    ensures SolutionsList([s0, s1]) == "1. " + s0 + "\n" + "2. " + s1
  {
    var items := Items([s0, s1]);
    assert items[1..] == [items[1]];
    assert DecimalString(1) == "1" && DecimalString(2) == "2";
  }

  // ---------------------------------------------------------- template

  /** The fixed text of the template, piece by piece, between the inserted values. */
  datatype Wording = Wording(
    opening: string,
    introEnd: string,
    goalStart: string,
    goalEnd: string,
    environmentHeading: string,
    schemaHeading: string,
    taskHeading: string,
    submissionHeading: string)

  /** What the layout facts need of the fixed text: a visible first character and a line break before the submission. */
  predicate ValidWording(w: Wording) {
    |w.opening| > 0 && !IsSpace(w.opening[0]) && |w.submissionHeading| > 0 && w.submissionHeading[|w.submissionHeading| - 1] == '\n'
  }

  /** The wording of `generate_prompt`'s template (the opening is split after "You" so its first character is visible without unrolling the literal). */
  const Template: Wording := Wording(
    "You" + " are tasked with evaluating an SQL assignment. The task includes ",
    " and one student submission. You are also provided with the SQL environment and database schema for context.\n\n",
    "Your goal is to compare the student's submission step by step against the ",
    ", identifying any syntax or semantic issues. Provide specific, actionable feedback that clearly explains the problems.\n\n",
    "Context:\n- SQL Environment: ",
    "\n- Schema: ",
    "\n- Task: ",
    "\n\nStudent Submission:\n")

  lemma TemplateIsValid()
    ensures ValidWording(Template)
  {
    assert Template.opening[0] == 'Y';
  }

  /** The first sentence up to the spelled-out count and the solution wording: "... includes two reference solutions". */
  function Lead(w: Wording, words: string, n: nat): (l: string)
    requires ValidWording(w)
    ensures |l| > 0 && !IsSpace(l[0]) && !IsSpace(l[|l| - 1])
  {
    var st := SolutionText(n);
    var l := w.opening + (words + " " + st);
    assert l[0] == w.opening[0];
    assert l[|l| - 1] == st[|st| - 1];
    l
  }

  /** The rest of the template before the submission: context, solutions block, submission heading. */
  function Sections(w: Wording, env: string, schema: string, task: string, solutions: seq<string>): (t: string)
    requires ValidWording(w)
    ensures |t| > 0 && t[|t| - 1] == '\n'
  {
    var n := |solutions|;
    var head := w.introEnd + w.goalStart + SolutionText(n) + w.goalEnd
      + w.environmentHeading + env + w.schemaHeading + schema + w.taskHeading + task + "\n\n"
      + DisplayPrefix(n) + ":\n" + SolutionsList(solutions);
    head + w.submissionHeading
  }

  /** The template without its leading line break and without the submission. */
  function Body(w: Wording, words: string, env: string, schema: string, task: string, solutions: seq<string>): (b: string)
    requires ValidWording(w)
    ensures IsPrefix(Lead(w, words, |solutions|), b)
    ensures !IsSpace(b[0]) && b[|b| - 1] == '\n'
    ensures !IsSpace(b[|Lead(w, words, |solutions|)| - 1])
  {
    var lead := Lead(w, words, |solutions|);
    var rest := Sections(w, env, schema, task, solutions);
    assert (lead + rest)[..|lead|] == lead;
    lead + rest
  }

  /** The prompt for a given wording: the stripped template. */
  function PromptFor(w: Wording, numberToWords: string -> string, env: string, schema: string, task: string,
                  solutions: seq<string>, submission: string): string
    requires ValidWording(w)
  {
    Strip("\n" + Body(w, numberToWords(DecimalString(|solutions|)), env, schema, task, solutions) + submission + "\n")
  }

  /** `generate_prompt`; `numberToWords` is the English spelling of a decimal numeral (inflect's `number_to_words`). */
  function GeneratePrompt(numberToWords: string -> string, env: string, schema: string, task: string,
                          solutions: seq<string>, submission: string): string
  {
    TemplateIsValid();
    PromptFor(Template, numberToWords, env, schema, task, solutions, submission)
  }

  /**
   * The prompt opens with the first sentence up to the solution wording,
   * whatever the submission. It ends with the submission less its trailing
   * whitespace when that leaves anything, and otherwise at the heading
   * "Student Submission:"; everything before is the body, untouched.
   */
  lemma PromptShape(w: Wording, numberToWords: string -> string, env: string, schema: string, task: string,
                    solutions: seq<string>, submission: string)
    requires ValidWording(w)
    ensures var p := PromptFor(w, numberToWords, env, schema, task, solutions, submission);
      var words := numberToWords(DecimalString(|solutions|));
      var body := Body(w, words, env, schema, task, solutions);
      && IsPrefix(Lead(w, words, |solutions|), p)
      && (RStrip(submission) != "" ==> p == body + RStrip(submission))
      && (RStrip(submission) == "" ==> p == RStrip(body))
  {
    var words := numberToWords(DecimalString(|solutions|));
    var body := Body(w, words, env, schema, task, solutions);
    PromptLayout(body, submission);
    PromptStartsWithLead(Lead(w, words, |solutions|), body, submission);
  }

  /** `PromptShape` for the template's own wording. */
  lemma GeneratePromptShape(numberToWords: string -> string, env: string, schema: string, task: string,
                            solutions: seq<string>, submission: string)
    ensures ValidWording(Template)
    ensures var p := GeneratePrompt(numberToWords, env, schema, task, solutions, submission);
      var words := numberToWords(DecimalString(|solutions|));
      var body := Body(Template, words, env, schema, task, solutions);
      && IsPrefix(Lead(Template, words, |solutions|), p)
      && (RStrip(submission) != "" ==> p == body + RStrip(submission))
      && (RStrip(submission) == "" ==> p == RStrip(body))
  {
    TemplateIsValid();
    PromptShape(Template, numberToWords, env, schema, task, solutions, submission);
  }

  /** The prompt starts with the lead whatever the submission, since the lead ends in a visible character. */
  lemma PromptStartsWithLead(lead: string, body: string, submission: string)
    requires IsPrefix(lead, body) && |lead| > 0 && !IsSpace(body[|lead| - 1])
    ensures IsPrefix(lead, body + RStrip(submission))
    ensures IsPrefix(lead, RStrip(body))
  {
    assert (body + RStrip(submission))[..|lead|] == body[..|lead|];
    RStripKeepsVisible(body, |lead| - 1);
    var rb := RStrip(body);
    assert rb[..|lead|] == body[..|rb|][..|lead|] == body[..|lead|];
  }

  /**
   * Stripping the template removes exactly its leading line break and the
   * trailing whitespace: a submission with visible text ends the prompt
   * (less its own trailing whitespace); a blank one leaves the prompt ending
   * at the heading "Student Submission:".
   */
  lemma PromptLayout(body: string, submission: string)
    requires |body| > 0 && !IsSpace(body[0]) && body[|body| - 1] == '\n'
    ensures RStrip(submission) != "" ==> Strip("\n" + body + submission + "\n") == body + RStrip(submission)
    ensures RStrip(submission) == "" ==> Strip("\n" + body + submission + "\n") == RStrip(body)
  {
    var nl := "\n";
    assert AllSpace(nl);
    RStripDropSpace(nl + body + submission, nl);
    if RStrip(submission) != "" {
      VisibleSubmission(nl, body, submission);
    } else {
      RStripDropSpace(nl + body, submission);
      BlankSubmission(nl, body);
    }
  }

  lemma VisibleSubmission(nl: string, body: string, submission: string)
    requires nl == "\n" && |body| > 0 && !IsSpace(body[0])
    requires RStrip(submission) != ""
    ensures LStrip(RStrip(nl + body + submission)) == body + RStrip(submission)
  {
    RStripAppend(nl + body, submission);
    assert (nl + body) + RStrip(submission) == nl + (body + RStrip(submission));
    assert AllSpace(nl);
    LStripSpacePrefix(nl, body + RStrip(submission));
  }

  lemma BlankSubmission(nl: string, body: string)
    requires nl == "\n" && |body| > 0 && !IsSpace(body[0]) && body[|body| - 1] == '\n'
    ensures LStrip(RStrip(nl + body)) == RStrip(body)
  {
    var rb := RStrip(body);
    if |body| == 1 {
      assert false;
    }
    assert rb != "" by {
      assert body[..1] == [body[0]];
      RStripKeepsVisible(body, 0);
    }
    RStripAppend(nl, body);
    assert AllSpace(nl);
    LStripSpacePrefix(nl, rb);
  }

  /** A visible character survives `rstrip`. */
  lemma RStripKeepsVisible(s: string, i: nat)
    requires i < |s| && !IsSpace(s[i])
    ensures i < |RStrip(s)|
  {
  }
}

=== FILE: proxy_api.dfy ===
/**
 * The persistence proxy's `analyse` handler without its transports: filling
 * in missing execution results through the SQL runner, forwarding the
 * redacted request upstream, and the status codes of its failures.
 */
module ProxyApi {
  import opened Wrappers
  import opened Models
  import opened ProxyModel
  import Db
  import Routes

  const StatusBadGateway: nat := 502

  /** `error_for_status`: client and server error codes are failures. */
  predicate IsErrorStatus(status: nat) {
    400 <= status < 600
  }

  // ------------------------------------------------------------ runner

  /** The runner's answer body: a result set, or where and why the query failed. */
  datatype RunReply = Success(resultSet: ResultSet) | Failure(location: string, error: string)

  /**
   * One call to the runner: no usable answer (connection failure, an error
   * status, an undecodable body), or a decoded answer.
   */
  datatype RunnerOutcome = Unreachable | Replied(reply: RunReply)

  /** The runner, seen as the outcome of running a query in an environment. */
  type Runner = (string, string) -> RunnerOutcome

  /** The entry `generate_results` makes of one runner call. */
  function ToEntry(outcome: RunnerOutcome): (e: Option<SqlResult>)
    ensures e.None? <==> outcome.Unreachable?
    ensures e.Some? && e.value.SqlOk? <==> outcome.Replied? && outcome.reply.Success?
    ensures outcome.Replied? && outcome.reply.Success? ==> e.value.resultSet == outcome.reply.resultSet
    ensures outcome.Replied? && outcome.reply.Failure? ==> e.value.message == "Error: " + outcome.reply.error
  {
    match outcome
    case Unreachable => None
    case Replied(Success(rs)) => Some(SqlOk(rs))
    case Replied(Failure(_, error)) => Some(SqlError("Error: " + error))
  }

  /** `generate_results`: one entry per query, in query order, each query run in the schema as its environment. */
  function GenerateResults(runner: Runner, dbSchema: string, queries: seq<string>): (r: Results)
    ensures |r| == |queries|
    ensures forall i :: 0 <= i < |r| ==> r[i] == ToEntry(runner(dbSchema, queries[i]))
  {
    if |queries| == 0 then []
    else [ToEntry(runner(dbSchema, queries[0]))] + GenerateResults(runner, dbSchema, queries[1..])
  }

  /** Results for a concatenation of query lists are the concatenation of their results. */
  lemma {:induction false} GenerateResultsAppend(runner: Runner, dbSchema: string, q1: seq<string>, q2: seq<string>)
    ensures GenerateResults(runner, dbSchema, q1 + q2) == GenerateResults(runner, dbSchema, q1) + GenerateResults(runner, dbSchema, q2)
    decreases |q1|
  {
    if |q1| > 0 {
      assert (q1 + q2)[1..] == q1[1..] + q2;
      GenerateResultsAppend(runner, dbSchema, q1[1..], q2);
    }
  }

  /**
   * The runner as the SQL runner's `run` handler serves it over HTTP: a
   * result set decodes as a success unless it holds an infinite float (which
   * goes out as `null` and does not decode), an error body with a non-error
   * status decodes as a failure, and an error status gives no usable answer.
   */
  function ServedBy(execute: Routes.Executor): Runner {
    (environment: string, query: string) =>
      match Routes.Run(execute, environment, query)
      case Ok(rs) => if FiniteFloats(rs) then Replied(Success(rs)) else Unreachable
      case Err(resp) => if IsErrorStatus(resp.status) then Unreachable else Replied(Failure(resp.body.location, resp.body.error))
  }

  /**
   * Across the two services: a query whose environment or statement fails
   * becomes `Error("Error: " + message)`; one that fails inside the runner
   * becomes `None`; one that runs becomes its result set, unless the set
   * holds an infinite float, which the JSON hop turns into `None`.
   */
  lemma GenerateResultsFromRunner(execute: Routes.Executor, dbSchema: string, queries: seq<string>, i: nat)
    requires i < |queries|
    ensures var e := GenerateResults(ServedBy(execute), dbSchema, queries)[i];
      match execute(dbSchema, queries[i])
      case Ok(rs) => (FiniteFloats(rs) ==> e == Some(SqlOk(rs))) && (!FiniteFloats(rs) ==> e.None?)
      case Err(Init(cause)) => e == Some(SqlError("Error: " + cause.message))
      case Err(Execute(cause)) => e == Some(SqlError("Error: " + cause.message))
      case Err(_) => e.None?
  {
  }

  /** `SELECT 'Infinity'::float8` runs in the runner, yet the proxy records no result for it. */
  lemma InfinityIsLostInTransit(dbSchema: string, query: string)
    ensures var rs := ResultSet(["float8"], [[Float(PosInfinity)]]);
      var execute: Routes.Executor := (e: string, q: string) => Ok(rs);
      GenerateResults(ServedBy(execute), dbSchema, [query]) == [None]
  {
    var rs := ResultSet(["float8"], [[Float(PosInfinity)]]);
    assert !FiniteFloats(rs) by { assert rs.rows[0][0] == Float(PosInfinity); }
  }

  // -------------------------------------------------------------- fill

  /**
   * The request as it goes upstream before redaction: with a runner
   * configured, each results field the caller left out is filled in; fields
   * the caller supplied are kept as they are.
   */
  function Fill(runner: Option<Runner>, req: AnalysisRequest): (r: AnalysisRequest)
    ensures r.(solutionResults := req.solutionResults, submissionResults := req.submissionResults) == req
    ensures req.solutionResults.Some? ==> r.solutionResults == req.solutionResults
    ensures req.submissionResults.Some? ==> r.submissionResults == req.submissionResults
    ensures runner.None? ==> r == req
    ensures runner.Some? && req.solutionResults.None? ==>
      r.solutionResults == Some(GenerateResults(runner.value, req.dbSchema, req.solutions))
    ensures runner.Some? && req.submissionResults.None? ==>
      r.submissionResults == Some(GenerateResults(runner.value, req.dbSchema, req.submissions))
  {
    match runner
    case None => req
    case Some(run) =>
      var withSolutions :=
        if req.solutionResults.None? then req.(solutionResults := Some(GenerateResults(run, req.dbSchema, req.solutions)))
        else req;
      if withSolutions.submissionResults.None? then
        withSolutions.(submissionResults := Some(GenerateResults(run, req.dbSchema, req.submissions)))
      else withSolutions
  }

  /** With a runner configured both results fields are present afterwards, and filling again changes nothing. */
  lemma FillIdempotent(runner: Option<Runner>, req: AnalysisRequest)
    ensures runner.Some? ==> Fill(runner, req).solutionResults.Some? && Fill(runner, req).submissionResults.Some?
    ensures Fill(runner, Fill(runner, req)) == Fill(runner, req)
  {
  }

  /** Filling and redacting touch disjoint fields, so their order does not matter. */
  lemma FillCommutesWithRedact(runner: Option<Runner>, req: AnalysisRequest)
    ensures Redact(Fill(runner, req)) == Fill(runner, Redact(req))
  {
  }

  // ---------------------------------------------------------- upstream

  /** One exchange with the feedback service: no response at all, or a status and a body that may not decode. */
  datatype UpstreamReply = NoResponse | Response(status: nat, body: Option<AnalysisResults>)

  /** The feedback service, seen as its reply to a request body. */
  type Upstream = AnalysisRequest -> UpstreamReply

  /** Why `upstream_proxy` failed. */
  datatype ProxyError = Transport | UpstreamError(status: nat) | Undecodable

  /** `upstream_proxy`: the redacted request is sent; an error status or an undecodable body is a failure. */
  function UpstreamProxy(upstream: Upstream, body: AnalysisRequest): (r: Result<AnalysisResults, ProxyError>)
    ensures var reply := upstream(Redact(body));
      r.Ok? <==> reply.Response? && !IsErrorStatus(reply.status) && reply.body.Some?
    ensures r.Ok? ==> r.value == upstream(Redact(body)).body.value
    ensures upstream(Redact(body)).Response? && IsErrorStatus(upstream(Redact(body)).status) ==>
      r == Err(UpstreamError(upstream(Redact(body)).status))
  {
    match upstream(Redact(body))
    case NoResponse => Err(Transport)
    case Response(status, answer) =>
      if IsErrorStatus(status) then Err(UpstreamError(status))
      else if answer.None? then Err(Undecodable)
      else Ok(answer.value)
  }

  // ----------------------------------------------------------- analyse

  /** The log record: who asked, the request exactly as received, and the answer. */
  datatype LogEntry = LogEntry(consumerId: int, request: AnalysisRequest, response: AnalysisResults)

  /** The log store, seen as whether inserting a record succeeds. */
  type LogStore = LogEntry -> bool

  /** The request the feedback service receives for a body: filled in, then redacted. */
  function Forwarded(runner: Option<Runner>, body: AnalysisRequest): (f: AnalysisRequest)
    ensures Anonymous(f)
    ensures f.sqlEnvironment == body.sqlEnvironment && f.dbSchema == body.dbSchema && f.task == body.task
    ensures f.solutions == body.solutions && f.submissions == body.submissions && f.feedbackLanguage == body.feedbackLanguage
    ensures body.solutionResults.Some? ==> f.solutionResults == body.solutionResults
    ensures body.submissionResults.Some? ==> f.submissionResults == body.submissionResults
  {
    Redact(Fill(runner, body))
  }

  /**
   * `analyse` after authentication: any upstream failure is a bad gateway;
   * a failure to log the exchange is an internal error; otherwise the
   * upstream's answer is returned as it is.
   */
  function Analyse(consumerId: int, runner: Option<Runner>, upstream: Upstream, store: LogStore, body: AnalysisRequest)
    : (r: Result<AnalysisResults, nat>)
    ensures var reply := upstream(Forwarded(runner, body));
      var answered := reply.Response? && !IsErrorStatus(reply.status) && reply.body.Some?;
      && (!answered <==> r == Err(StatusBadGateway))
      && (answered ==> (r.Ok? <==> store(LogEntry(consumerId, body, reply.body.value))))
      && (answered && r.Err? ==> r.error == Routes.StatusInternalServerError)
      && (r.Ok? ==> r.value == reply.body.value)
  {
    match UpstreamProxy(upstream, Fill(runner, body))
    case Err(_) => Err(StatusBadGateway)
    case Ok(answer) =>
      if store(LogEntry(consumerId, body, answer)) then Ok(answer) else Err(Routes.StatusInternalServerError)
  }

  /**
   * The log receives the request as the caller sent it, ids included: a
   * store that accepts only anonymous requests never lets an identified
   * request through, although the upstream only ever sees anonymous ones.
   */
  lemma LogKeepsCallerIds(consumerId: int, runner: Option<Runner>, upstream: Upstream, body: AnalysisRequest)
    requires body.taskId.Some?
    ensures Anonymous(Forwarded(runner, body))
    ensures Analyse(consumerId, runner, upstream, (e: LogEntry) => Anonymous(e.request), body).Err?
  {
  }
}

=== FILE: proxy_model.dfy ===
/** The persistence proxy's request and answer records. */
module ProxyModel {
  import opened Wrappers
  import opened Models

  /** An analysis request as the proxy receives and forwards it. */
  datatype AnalysisRequest = AnalysisRequest(
    sqlEnvironment: string,
    dbSchema: string,
    task: string,
    solutions: seq<string>,
    submissions: seq<string>,
    solutionResults: Option<Results>,
    submissionResults: Option<Results>,
    taskId: Option<string>,
    userId: Option<string>,
    feedbackLanguage: Option<string>)

  datatype AnalysisResult = AnalysisResult(correct: bool, feedback: string)

  type AnalysisResults = seq<AnalysisResult>

  /** The two identifying fields are absent. */
  predicate Anonymous(req: AnalysisRequest) {
    req.taskId.None? && req.userId.None?
  }

  /** Everything but the identifying fields agrees. */
  predicate SameContent(a: AnalysisRequest, b: AnalysisRequest) {
    && a.sqlEnvironment == b.sqlEnvironment
    && a.dbSchema == b.dbSchema
    && a.task == b.task
    && a.solutions == b.solutions
    && a.submissions == b.submissions
    && a.solutionResults == b.solutionResults
    && a.submissionResults == b.submissionResults
    && a.feedbackLanguage == b.feedbackLanguage
  }

  /** `redact`: takes the task and user ids out and leaves the rest alone. */
  function Redact(req: AnalysisRequest): (r: AnalysisRequest)
    ensures Anonymous(r)
    ensures SameContent(r, req)
  {
    req.(taskId := None, userId := None)
  }

  /** An anonymous request is exactly one with the same content and no ids, so redaction is the identity on it. */
  lemma RedactIsIdentityIffAnonymous(req: AnalysisRequest)
    ensures Redact(req) == req <==> Anonymous(req)
  {
  }

  /** Redacting twice is redacting once. */
  lemma RedactIdempotent(req: AnalysisRequest)
    ensures Redact(Redact(req)) == Redact(req)
  {
  }

  /** Requests that differ only in their ids redact to the same request. */
  lemma RedactForgetsOnlyIds(a: AnalysisRequest, b: AnalysisRequest)
    ensures Redact(a) == Redact(b) <==> SameContent(a, b)
  {
  }
}

=== FILE: routes.dfy ===
/**
 * The SQL runner's HTTP handlers, minus the transport: mapping execution
 * errors to responses, request defaults, and assembling the single and batch
 * comparison responses.
 */
module Routes {
  import opened Wrappers
  import opened Models
  import opened Db

  const StatusOk: nat := 200
  const StatusInternalServerError: nat := 500

  /** The error body: where the failure happened and a message. */
  datatype RunError = RunError(location: string, error: string)

  /** A status code with its error body. */
  datatype ErrorResponse = ErrorResponse(status: nat, body: RunError)

  /**
   * `err_to_response`: failures of the caller's environment or query are
   * reported with status 200 and the driver's message; anything else is an
   * internal error whose details are withheld.
   */
  function ErrToResponse(err: SqlExecutionError): (r: ErrorResponse)
    ensures err.Init? ==> r == ErrorResponse(StatusOk, RunError("init", err.cause.message))
    ensures err.Execute? ==> r == ErrorResponse(StatusOk, RunError("query", err.cause.message))
    ensures !err.Init? && !err.Execute? ==>
      r == ErrorResponse(StatusInternalServerError, RunError("other", "an internal error occurred"))
  {
    match err
    case Init(e) => ErrorResponse(StatusOk, RunError("init", e.message))
    case Execute(e) => ErrorResponse(StatusOk, RunError("query", e.message))
    case _ => ErrorResponse(StatusInternalServerError, RunError("other", "an internal error occurred"))
  }

  /** The status alone tells a caller's mistake (200) from an internal failure (500), and internal details never leak. */
  lemma ErrorStatusClassifies(err: SqlExecutionError, other: SqlExecutionError)
    ensures ErrToResponse(err).status == StatusOk <==> err.Init? || err.Execute?
    ensures ErrToResponse(err).status != StatusOk <==> ErrToResponse(err).body.location == "other"
    ensures ErrToResponse(err).status != StatusOk && ErrToResponse(other).status != StatusOk ==>
      ErrToResponse(err) == ErrToResponse(other)
  {
  }

  // ---------------------------------------------------------------- defaults

  function DefaultRowNormalisation(): RowNormalisation { NoRowNormalization }

  function DefaultColumnNormalisation(): ColumnNormalisation { NumberColumnsByOrder }

  function DefaultReturnResultSet(): bool { false }

  /** A solution of a batch request as it arrives, fields possibly absent. */
  datatype SolutionFields = SolutionFields(
    query: string,
    rowNormalisation: Option<RowNormalisation>,
    columnNormalisation: Option<ColumnNormalisation>,
    returnResultSet: Option<bool>)

  datatype Solution = Solution(
    query: string,
    rowNormalisation: RowNormalisation,
    columnNormalisation: ColumnNormalisation,
    returnResultSet: bool)

  function OrDefault<T>(o: Option<T>, default: T): T {
    match o
    case Some(v) => v
    case None => default
  }

  /** A solution with every field written out, as a client that sends all fields would. */
  function Explicit(s: Solution): SolutionFields {
    SolutionFields(s.query, Some(s.rowNormalisation), Some(s.columnNormalisation), Some(s.returnResultSet))
  }

  /** Deserialising a solution: absent fields take the serde defaults, present ones are kept. */
  function ReadSolution(f: SolutionFields): (s: Solution)
    ensures s.query == f.query
    ensures f.rowNormalisation.None? ==> s.rowNormalisation == NoRowNormalization
    ensures f.columnNormalisation.None? ==> s.columnNormalisation == NumberColumnsByOrder
    ensures f.returnResultSet.None? ==> !s.returnResultSet
    ensures f.rowNormalisation.Some? ==> s.rowNormalisation == f.rowNormalisation.value
    ensures f.columnNormalisation.Some? ==> s.columnNormalisation == f.columnNormalisation.value
    ensures f.returnResultSet.Some? ==> s.returnResultSet == f.returnResultSet.value
  {
    Solution(
      f.query,
      OrDefault(f.rowNormalisation, DefaultRowNormalisation()),
      OrDefault(f.columnNormalisation, DefaultColumnNormalisation()),
      OrDefault(f.returnResultSet, DefaultReturnResultSet()))
  }

  /**
   * Writing every field out reads back the same solution, and leaving out a
   * field is the same as writing out its default.
   */
  lemma ReadSolutionDefaults(s: Solution, query: string)
    ensures ReadSolution(Explicit(s)) == s
    ensures ReadSolution(SolutionFields(query, None, None, None))
         == ReadSolution(Explicit(Solution(query, NoRowNormalization, NumberColumnsByOrder, false)))
  {
  }

  // ----------------------------------------------------- run and compare

  /** Executes a query in an environment (the database work the model leaves out). */
  type Executor = (string, string) -> Execution

  ghost predicate WellShapedExecutor(execute: Executor) {
    forall environment, query :: WellShaped(execute(environment, query))
  }

  /** `run`: the result set, or the error response. */
  function Run(execute: Executor, environment: string, query: string): (r: Result<ResultSet, ErrorResponse>)
    ensures r.Ok? <==> execute(environment, query).Ok?
    ensures r.Ok? ==> r.value == execute(environment, query).value
    ensures r.Err? ==> (r.error.status == StatusOk <==> execute(environment, query).error.Init? || execute(environment, query).error.Execute?)
    ensures r.Err? && r.error.status == StatusOk ==> r.error.body.error == execute(environment, query).error.cause.message
  {
    match execute(environment, query)
    case Ok(rs) => Ok(rs)
    case Err(e) => Err(ErrToResponse(e))
  }

  datatype CompareRequest = CompareRequest(
    environment: string,
    solution: string,
    submission: string,
    rowNormalisation: RowNormalisation,
    columnNormalisation: ColumnNormalisation)

  /** A compare request as it arrives, the normalisation fields possibly absent. */
  datatype CompareFields = CompareFields(
    environment: string,
    solution: string,
    submission: string,
    rowNormalisation: Option<RowNormalisation>,
    columnNormalisation: Option<ColumnNormalisation>)

  /** A compare request with both normalisations written out. */
  function ExplicitCompare(req: CompareRequest): CompareFields {
    CompareFields(req.environment, req.solution, req.submission, Some(req.rowNormalisation), Some(req.columnNormalisation))
  }

  /** Deserialising a compare request: absent normalisations take the serde defaults, present ones are kept. */
  function ReadCompareRequest(f: CompareFields): (req: CompareRequest)
    ensures req.environment == f.environment && req.solution == f.solution && req.submission == f.submission
    ensures f.rowNormalisation.None? ==> req.rowNormalisation == NoRowNormalization
    ensures f.columnNormalisation.None? ==> req.columnNormalisation == NumberColumnsByOrder
    ensures f.rowNormalisation.Some? ==> req.rowNormalisation == f.rowNormalisation.value
    ensures f.columnNormalisation.Some? ==> req.columnNormalisation == f.columnNormalisation.value
  {
    CompareRequest(
      f.environment,
      f.solution,
      f.submission,
      OrDefault(f.rowNormalisation, DefaultRowNormalisation()),
      OrDefault(f.columnNormalisation, DefaultColumnNormalisation()))
  }

  /**
   * A fully written-out compare request reads back as itself, and leaving out
   * both normalisations is the same as writing out the defaults, which are
   * the defaults a batch solution gets.
   */
  lemma ReadCompareRequestDefaults(req: CompareRequest, environment: string, solution: string, submission: string)
    ensures ReadCompareRequest(ExplicitCompare(req)) == req
    ensures var read := ReadCompareRequest(CompareFields(environment, solution, submission, None, None));
      && read == ReadCompareRequest(ExplicitCompare(CompareRequest(environment, solution, submission, NoRowNormalization, NumberColumnsByOrder)))
      && read.rowNormalisation == ReadSolution(SolutionFields(solution, None, None, None)).rowNormalisation
      && read.columnNormalisation == ReadSolution(SolutionFields(solution, None, None, None)).columnNormalisation
  {
  }

  datatype CompareResponse = CompareResponse(solution: ResultSet, submission: ResultSet, equal: bool)

  /** `compare_result_set`: the solution runs as query a, the submission as query b. */
  function CompareResultSet(execute: Executor, req: CompareRequest): (r: Result<CompareResponse, ErrorResponse>)
    requires WellShapedExecutor(execute)
    ensures var sol, sub := execute(req.environment, req.solution), execute(req.environment, req.submission);
      && (r.Ok? <==> sol.Ok? && sub.Ok?)
      && (sol.Err? ==> r == Err(ErrToResponse(sol.error)))
      && (sol.Ok? && sub.Err? ==> r == Err(ErrToResponse(sub.error)))
      && (r.Ok? ==> r.value.solution == NormaliseSet(sol.value, req.rowNormalisation, req.columnNormalisation))
      && (r.Ok? ==> r.value.submission == NormaliseSet(sub.value, req.rowNormalisation, req.columnNormalisation))
      && (r.Ok? ==> (r.value.equal <==> r.value.solution == r.value.submission))
  {
    var c := Compare(execute(req.environment, req.solution), execute(req.environment, req.submission),
                     req.rowNormalisation, req.columnNormalisation);
    match c
    case Err(e) => Err(ErrToResponse(e))
    case Ok(cmp) => Ok(CompareResponse(cmp.a, cmp.b, cmp.equal))
  }

  // -------------------------------------------------------- batch compare

  datatype BatchCompareRequest = BatchCompareRequest(environment: string, solutions: seq<Solution>, submission: string)

  datatype SolutionResponse = SolutionResponse(eq: bool, resultSet: Option<ResultSet>)

  datatype BatchCompareResponse = BatchCompareResponse(solutions: seq<SolutionResponse>, submissionResultSet: Option<ResultSet>)

  /** The comparison of solution `i` against the submission. */
  function CompareSolution(execute: Executor, req: BatchCompareRequest, i: nat): Result<Comparison, SqlExecutionError>
    requires WellShapedExecutor(execute)
    requires i < |req.solutions|
  {
    var sol := req.solutions[i];
    Compare(execute(req.environment, sol.query), execute(req.environment, req.submission),
            sol.rowNormalisation, sol.columnNormalisation)
  }

  /** The entry of one successful comparison: its verdict, and the submission-side set if requested. */
  function ToSolutionResponse(sol: Solution, c: Comparison): SolutionResponse {
    SolutionResponse(c.equal, if sol.returnResultSet then Some(c.b) else None)
  }

  /** Every solution's comparison against the submission, in input order. */
  function Comparisons(execute: Executor, req: BatchCompareRequest): (cs: seq<Result<Comparison, SqlExecutionError>>)
    requires WellShapedExecutor(execute)
    ensures |cs| == |req.solutions|
    ensures forall i :: 0 <= i < |cs| ==> cs[i] == CompareSolution(execute, req, i)
  {
    seq(|req.solutions|, i requires 0 <= i < |req.solutions| => CompareSolution(execute, req, i))
  }

  /**
   * Collects the entries from solution `from` on, given each solution's
   * comparison outcome; the first failure in input order fails them all.
   */
  function CollectFrom(sols: seq<Solution>, outcomes: seq<Result<Comparison, SqlExecutionError>>, from: nat): (r: Result<seq<SolutionResponse>, ErrorResponse>)
    requires |outcomes| == |sols|
    requires from <= |sols|
    ensures r.Ok? <==> forall i :: from <= i < |sols| ==> outcomes[i].Ok?
    ensures r.Ok? ==> |r.value| == |sols| - from
    ensures r.Ok? ==> forall i :: from <= i < |sols| ==>
      r.value[i - from] == ToSolutionResponse(sols[i], outcomes[i].value)
    ensures r.Err? ==> exists i ::
      && from <= i < |sols|
      && outcomes[i].Err?
      && r.error == ErrToResponse(outcomes[i].error)
      && forall k :: from <= k < i ==> outcomes[k].Ok?
    decreases |sols| - from
  {
    if from == |sols| then Ok([])
    else match outcomes[from]
      case Err(e) => Err(ErrToResponse(e))
      case Ok(c) =>
        match CollectFrom(sols, outcomes, from + 1)
        case Err(e) => Err(e)
        case Ok(rest) => Ok([ToSolutionResponse(sols[from], c)] + rest)
  }

  /**
   * `batch_compare_result_sets`, sequentially: one entry per solution in
   * input order, the first failure failing the batch, and
   * `submission_result_set` taken from the first comparison's `a` set.
   */
  function BatchCompare(execute: Executor, req: BatchCompareRequest): (r: Result<BatchCompareResponse, ErrorResponse>)
    requires WellShapedExecutor(execute)
    ensures r.Ok? <==> forall i :: 0 <= i < |req.solutions| ==> CompareSolution(execute, req, i).Ok?
    ensures r.Ok? ==> |r.value.solutions| == |req.solutions|
    ensures r.Ok? ==> forall i :: 0 <= i < |req.solutions| ==>
      && r.value.solutions[i].eq == CompareSolution(execute, req, i).value.equal
      && (r.value.solutions[i].resultSet.Some? <==> req.solutions[i].returnResultSet)
      && (r.value.solutions[i].resultSet.Some? ==> r.value.solutions[i].resultSet.value == CompareSolution(execute, req, i).value.b)
    ensures r.Ok? && |req.solutions| == 0 ==> r.value.submissionResultSet.None?
    ensures r.Ok? && |req.solutions| > 0 ==> r.value.submissionResultSet == Some(CompareSolution(execute, req, 0).value.a)
    ensures r.Err? ==> exists i ::
      && 0 <= i < |req.solutions|
      && CompareSolution(execute, req, i).Err?
      && r.error == ErrToResponse(CompareSolution(execute, req, i).error)
      && forall k :: 0 <= k < i ==> CompareSolution(execute, req, k).Ok?
  {
    match CollectFrom(req.solutions, Comparisons(execute, req), 0)
    case Err(e) => Err(e)
    case Ok(entries) =>
      var first := if |req.solutions| == 0 then None else Some(CompareSolution(execute, req, 0).value.a);
      Ok(BatchCompareResponse(entries, first))
  }

  // -------------------------------------- submission_result_set as written

  /**
   * As written, `submission_result_set` is the first comparison's `a` set,
   * which is the SOLUTION's normalised result, not the submission's.
   */
  lemma SubmissionResultSetIsSolutionSide()
    ensures var sub := ResultSet(["n"], [[Int(2)]]);
      var execute: Executor := (e: string, q: string) =>
        if q == "solution" then Ok(ResultSet(["n"], [[Int(1)]])) else Ok(sub);
      var req := BatchCompareRequest("env", [Solution("solution", NoRowNormalization, NoColumnNormalization, false)], "submission");
      && WellShapedExecutor(execute)
      && BatchCompare(execute, req).Ok?
      && BatchCompare(execute, req).value.submissionResultSet != Some(sub)
  {
    var sub := ResultSet(["n"], [[Int(2)]]);
    var execute: Executor := (e: string, q: string) =>
      if q == "solution" then Ok(ResultSet(["n"], [[Int(1)]])) else Ok(sub);
    var req := BatchCompareRequest("env", [Solution("solution", NoRowNormalization, NoColumnNormalization, false)], "submission");
    assert CompareSolution(execute, req, 0).value.a == ResultSet(["n"], [[Int(1)]]);
  }

  /**
   * The batch compare with `submission_result_set` taken from the first
   * comparison's `b` set: the submission's own result, normalised as the
   * first solution asks.
   */
  function BatchCompareCorrected(execute: Executor, req: BatchCompareRequest): (r: Result<BatchCompareResponse, ErrorResponse>)
    requires WellShapedExecutor(execute)
    ensures r.Ok? <==> BatchCompare(execute, req).Ok?
    ensures r.Ok? ==> r.value.solutions == BatchCompare(execute, req).value.solutions
    ensures r.Ok? && |req.solutions| > 0 ==>
      && execute(req.environment, req.submission).Ok?
      && r.value.submissionResultSet == Some(NormaliseSet(execute(req.environment, req.submission).value,
                                                          req.solutions[0].rowNormalisation,
                                                          req.solutions[0].columnNormalisation))
    ensures r.Ok? && |req.solutions| == 0 ==> r.value.submissionResultSet.None?
  {
    match CollectFrom(req.solutions, Comparisons(execute, req), 0)
    case Err(e) => Err(e)
    case Ok(entries) =>
      var first := if |req.solutions| == 0 then None else Some(CompareSolution(execute, req, 0).value.b);
      Ok(BatchCompareResponse(entries, first))
  }
}

=== FILE: sorting.dfy ===
/**
 * Insertion sort over an arbitrary order, and the facts the normalisations
 * need: the result is a permutation, it is sorted, and under a total order
 * it is the only sorted permutation.
 */
module Sorting {
  import opened Order

  /** Every earlier element is `leq` every later one. */
  ghost predicate SortedBy<T>(s: seq<T>, leq: (T, T) -> bool) {
    forall i, j :: 0 <= i < j < |s| ==> leq(s[i], s[j])
  }

  /** No element occurs twice. */
  ghost predicate Distinct<T>(s: seq<T>) {
    forall i, j :: 0 <= i < j < |s| ==> s[i] != s[j]
  }

  /** Puts `x` in front of the first element it is `leq` to. */
  function Insert<T(==,!new)>(x: T, s: seq<T>, leq: (T, T) -> bool): (r: seq<T>)
    ensures |r| == |s| + 1
    ensures multiset(r) == multiset(s) + multiset{x}
    ensures forall y :: y in r <==> y == x || y in s
  {
    if |s| == 0 then [x]
    else if leq(x, s[0]) then [x] + s
    else
      assert s == [s[0]] + s[1..];
      [s[0]] + Insert(x, s[1..], leq)
  }

  /** Insertion sort: the result holds exactly the input's elements, with the same multiplicities. */
  function Sort<T(==,!new)>(s: seq<T>, leq: (T, T) -> bool): (r: seq<T>)
    ensures |r| == |s|
    ensures multiset(r) == multiset(s)
    ensures forall y :: y in r <==> y in s
  {
    if |s| == 0 then []
    else
      assert s == [s[0]] + s[1..];
      Insert(s[0], Sort(s[1..], leq), leq)
  }

  lemma {:induction false} InsertSorted<T(!new)>(x: T, s: seq<T>, leq: (T, T) -> bool)
    requires TotalOrder(leq)
    requires SortedBy(s, leq)
    ensures SortedBy(Insert(x, s, leq), leq)
    decreases |s|
  {
    if |s| > 0 && !leq(x, s[0]) {
      var rest := Insert(x, s[1..], leq);
      InsertSorted(x, s[1..], leq);
      assert leq(s[0], x);
      forall y | y in rest ensures leq(s[0], y) {
        if y != x {
          var k :| 1 <= k < |s| && s[k] == y;
        }
      }
      var r := [s[0]] + rest;
      forall i, j | 0 <= i < j < |r| ensures leq(r[i], r[j]) {
        if i > 0 {
          assert r[i] == rest[i - 1] && r[j] == rest[j - 1];
        } else {
          assert r[j] in rest;
        }
      }
    } else if |s| > 0 {
      var r := [x] + s;
      forall i, j | 0 <= i < j < |r| ensures leq(r[i], r[j]) {
        if i == 0 {
          assert leq(x, s[0]);
          assert r[j] == s[j - 1];
        } else {
          assert r[i] == s[i - 1] && r[j] == s[j - 1];
        }
      }
    }
  }

  /** Under a total order, `Sort` returns a sorted sequence. */
  lemma {:induction false} SortSorted<T(!new)>(s: seq<T>, leq: (T, T) -> bool)
    requires TotalOrder(leq)
    ensures SortedBy(Sort(s, leq), leq)
    decreases |s|
  {
    if |s| > 0 {
      SortSorted(s[1..], leq);
      InsertSorted(s[0], Sort(s[1..], leq), leq);
    }
  }

  /** Sorting an already sorted sequence leaves it as it is. */
  lemma {:induction false} SortOfSorted<T(!new)>(s: seq<T>, leq: (T, T) -> bool)
    requires SortedBy(s, leq)
    ensures Sort(s, leq) == s
    decreases |s|
  {
    if |s| > 0 {
      assert SortedBy(s[1..], leq) by {
        forall i, j | 0 <= i < j < |s[1..]| ensures leq(s[1..][i], s[1..][j]) {
          assert s[1..][i] == s[i + 1] && s[1..][j] == s[j + 1];
        }
      }
      SortOfSorted(s[1..], leq);
      if |s| > 1 {
        assert leq(s[0], s[1]);
        assert s == [s[0]] + s[1..];
      }
    }
  }

  /** Under a total order, two sorted sequences with the same elements are equal. */
  lemma {:induction false} SortedPermutationUnique<T(!new)>(a: seq<T>, b: seq<T>, leq: (T, T) -> bool)
    requires TotalOrder(leq)
    requires SortedBy(a, leq) && SortedBy(b, leq)
    requires multiset(a) == multiset(b)
    ensures a == b
    decreases |a|
  {
    assert |b| == |multiset(b)| == |multiset(a)| == |a|;
    if |a| > 0 {
      HeadIsLeast(b, a[0], leq);
      HeadIsLeast(a, b[0], leq);
      assert a[0] == b[0];
      MultisetTail(a);
      MultisetTail(b);
      SortedTail(a, leq);
      SortedTail(b, leq);
      SortedPermutationUnique(a[1..], b[1..], leq);
      assert a == [a[0]] + a[1..] && b == [b[0]] + b[1..];
    }
  }

  lemma HeadIsLeast<T(!new)>(s: seq<T>, x: T, leq: (T, T) -> bool)
    requires TotalOrder(leq) && SortedBy(s, leq)
    requires x in multiset(s)
    ensures leq(s[0], x)
  {
    var j :| 0 <= j < |s| && s[j] == x;
    if j == 0 {
      assert leq(x, x) || leq(x, x);
    }
  }

  lemma MultisetTail<T>(s: seq<T>)
    requires |s| > 0
    ensures multiset(s[1..]) == multiset(s) - multiset{s[0]}
  {
    assert s == [s[0]] + s[1..];
  }

  lemma SortedTail<T>(s: seq<T>, leq: (T, T) -> bool)
    requires |s| > 0 && SortedBy(s, leq)
    ensures SortedBy(s[1..], leq)
  {
    forall i, j | 0 <= i < j < |s| - 1 ensures leq(s[1..][i], s[1..][j]) {
      assert s[1..][i] == s[i + 1] && s[1..][j] == s[j + 1];
    }
  }

  /** Sorting keeps a sequence free of repetitions. */
  lemma {:induction false} SortDistinct<T(!new)>(s: seq<T>, leq: (T, T) -> bool)
    requires Distinct(s)
    ensures Distinct(Sort(s, leq))
    decreases |s|
  {
    if |s| > 0 {
      assert Distinct(s[1..]) by {
        forall i, j | 0 <= i < j < |s[1..]| ensures s[1..][i] != s[1..][j] {
          assert s[1..][i] == s[i + 1] && s[1..][j] == s[j + 1];
        }
      }
      SortDistinct(s[1..], leq);
      InsertDistinct(s[0], Sort(s[1..], leq), leq);
    }
  }

  lemma {:induction false} InsertDistinct<T(!new)>(x: T, s: seq<T>, leq: (T, T) -> bool)
    requires Distinct(s) && x !in s
    ensures Distinct(Insert(x, s, leq))
    decreases |s|
  {
    if |s| > 0 && !leq(x, s[0]) {
      assert Distinct(s[1..]) by {
        forall i, j | 0 <= i < j < |s[1..]| ensures s[1..][i] != s[1..][j] {
          assert s[1..][i] == s[i + 1] && s[1..][j] == s[j + 1];
        }
      }
      InsertDistinct(x, s[1..], leq);
      var rest := Insert(x, s[1..], leq);
      assert s[0] !in rest;
      var r := [s[0]] + rest;
      forall i, j | 0 <= i < j < |r| ensures r[i] != r[j] {
        if i == 0 {
          assert r[j] in rest;
        } else {
          assert r[i] == rest[i - 1] && r[j] == rest[j - 1];
        }
      }
    } else if |s| > 0 {
      var r := [x] + s;
      forall i, j | 0 <= i < j < |r| ensures r[i] != r[j] {
        if i == 0 {
          assert r[j] in s;
        } else {
          assert r[i] == s[i - 1] && r[j] == s[j - 1];
        }
      }
    }
  }
}

=== FILE: text.dfy ===
/** Bytes, decimal rendering of naturals (Rust's `to_string`, Python's `str`) and string joining. */
module Text {
  import opened Wrappers

  /** An octet, as the UTF-8 encodings and HTTP header values the services handle are made of. */
  newtype byte = x: int | 0 <= x < 256

  predicate IsDigit(c: char) {
    '0' <= c <= '9'
  }

  function DigitChar(d: nat): (c: char)
    requires d < 10
    ensures IsDigit(c) && (c as int) - ('0' as int) == d
  {
    ('0' as int + d) as char
  }

  /** The shortest decimal rendering of `n`, as `usize::to_string` and Python's `str` produce it. */
  function DecimalString(n: nat): (s: string)
    ensures 1 <= |s|
    ensures forall i :: 0 <= i < |s| ==> IsDigit(s[i])
    ensures s[0] == '0' ==> n == 0
    decreases n
  {
    if n < 10 then [DigitChar(n)] else DecimalString(n / 10) + [DigitChar(n % 10)]
  }

  /** The value of a string of decimal digits (an independent reading of `DecimalString`). */
  function DigitsValue(s: string): nat
    requires forall i :: 0 <= i < |s| ==> IsDigit(s[i])
  {
    if |s| == 0 then 0
    else
      assert IsDigit(s[|s| - 1]);
      10 * DigitsValue(s[..|s| - 1]) + ((s[|s| - 1] as int) - ('0' as int))
  }

  /** Reading back a rendered number gives the number. */
  lemma {:induction false} DecimalStringValue(n: nat)
    ensures DigitsValue(DecimalString(n)) == n
    decreases n
  {
    if n >= 10 {
      var s := DecimalString(n);
      var head := DecimalString(n / 10);
      assert s[..|s| - 1] == head;
      DecimalStringValue(n / 10);
    }
  }

  /** Distinct numbers render as distinct strings. */
  lemma DecimalStringInjective(m: nat, n: nat)
    requires m != n
    ensures DecimalString(m) != DecimalString(n)
  {
    DecimalStringValue(m);
    DecimalStringValue(n);
  }

  /** `sep.join(parts)` / `parts.join(sep)`. */
  function Join(parts: seq<string>, sep: string): (r: string)
    ensures |parts| == 1 ==> r == parts[0]
  {
    if |parts| == 0 then ""
    else if |parts| == 1 then parts[0]
    else parts[0] + sep + Join(parts[1..], sep)
  }

  /** Joining one more part appends the separator and that part at the end. */
  lemma {:induction false} JoinSnoc(parts: seq<string>, last: string, sep: string)
    requires |parts| >= 1
    ensures Join(parts + [last], sep) == Join(parts, sep) + sep + last
    decreases |parts|
  {
    if |parts| == 1 {
      assert (parts + [last])[1..] == [last];
    } else {
      assert (parts + [last])[1..] == parts[1..] + [last];
      JoinSnoc(parts[1..], last, sep);
    }
  }

  predicate IsPrefix<T(==)>(p: seq<T>, s: seq<T>) {
    |p| <= |s| && s[..|p|] == p
  }
}

=== FILE: wrappers.dfy ===
/** Rust-style optional values and results, shared by every module of the model. */
module Wrappers {

  /** `Option<T>`: an absent or present value. */
  datatype Option<+T> = None | Some(value: T)

  /** `Result<T, E>`: a value or an error. */
  datatype Result<+T, +E> = Ok(value: T) | Err(error: E)
}
